=== FILE: README.md ===
# yamdb v1 API — a Dafny model

yamdb is a review service for titles (books, films, music). Titles belong to a
category and carry genres. Users review titles with a score, comment on reviews,
sign up by email, and exchange a mailed confirmation code for a bearer token.
This project models the request handling of version 1 of its REST API as pure
functions over an immutable store (`Store.Db`). The model covers:

- the serializer validators (title year, signup, token, one review per author
  and title, read-only fields);
- the view transitions (signup, token, `users/me`, the titles, categories,
  genres, reviews and comments resources, and the serializer choice per action);
- the titles list filter and the derived `rating`.

Modules follow the program's structure:

| file | module | contents |
|---|---|---|
| common.dfy | `Common` | `Option`, `Result`, validation problems, error kinds and their HTTP status |
| text.dfy | `Text` | case folding of the ASCII letters A–Z and basic Cyrillic letters, substring search, the username pattern |
| store.dfy | `Store` | records, the store, its integrity rules, fresh ids, ascending listing |
| rating.dfy | `Rating` | the mean of the review scores and its integer truncation |
| filter.dfy | `Filter` | the titles list filter |
| serializers.dfy | `Serializers` | validators, request bodies, title representations |
| accounts.dfy | `Accounts` | signup, token, `users/me`, the users resource |
| catalog.dfy | `Catalog` | titles, categories, genres, the actions of each viewset |
| content.dfy | `Content` | reviews and comments nested under titles |

Every handler that can fail returns `Result`. An error is one of these kinds:

- `NotAuthenticated` (401);
- `PermissionDenied` (403);
- `NotFound` (404);
- `Invalid(problems)` (400, raised by a serializer);
- `CodeRejected` (400, the token view's own answer);
- `IntegrityError` (500, a unique constraint refusing a write).

Things outside the program are parameters:

- the current year `today`;
- the server time `now`;
- the email format rule `emailOk`;
- the confirmation-code check `codeOk`;
- the object permission `mayEdit`.

## Model

| member | source | states |
|---|---|---|
| Common.Status | api_yamdb/api/v1/views.py:119-120 | every error kind maps to a 4xx/5xx status, and exactly the serializer errors and a rejected code answer 400 |
| Text.ContainsIffOccurs | api_yamdb/api/v1/filter.py:6-8 | the executable substring search holds exactly when the needle occurs at some position of the haystack |
| Text.IContainsMeaning | api_yamdb/api/v1/filter.py:6-8 | `icontains` holds exactly when the case-folded needle occurs in the case-folded haystack |
| Text.IContainsIgnoresCase | api_yamdb/api/v1/filter.py:6-8 | folding either side beforehand never changes an `icontains` answer |
| Text.LowerChar | api_yamdb/api/v1/filter.py:6-8 | each ASCII capital A–Z and each capital `А`–`Я` goes to the letter 32 code points above, and `Ѐ`–`Џ` to the one 80 above, which is its own lower-case letter; no capital survives and every other character is kept |
| Text.CyrillicQueryMatches | api_yamdb/api/v1/filter.py:8 | a lower-case Cyrillic query finds a capitalised Cyrillic name, and a longer query does not |
| Text.EmptyQueryMatches | api_yamdb/api/v1/filter.py:6-8 | the empty needle is contained in every text |
| Text.MatchUsername | api_yamdb/api/v1/serializers.py:84-89 | the scan accepts exactly the non-empty strings of `\w . @ + -` characters, and never one ending in a newline |
| Text.TrailingNewlineRejected | api_yamdb/api/v1/serializers.py:86 | because the pattern is anchored with `\Z`, it does not match a string with a trailing newline |
| Store.NextKey | api_yamdb/api/v1/views.py:132-137 | a created row gets an id that is not in use and is larger than every stored id |
| Store.FindUsername | api_yamdb/api/v1/views.py:113-114 | the lookup by username finds a user exactly when one has that username, and returns one that does |
| Rating.SumBetween | api_yamdb/api/v1/views.py:27-28 | the sum of n scores lies between n times the lowest and n times the highest score |
| Rating.TruncatedQuotient | api_yamdb/api/v1/serializers.py:29 | the integer field truncates the average toward zero: the quotient bracketed from below for non-negative sums and from above for negative ones |
| Rating.QuotientBetween | api_yamdb/api/v1/serializers.py:29 | truncating a mean that lies between two integers stays between them |
| Rating.Mean | api_yamdb/api/v1/views.py:28 | `Avg` is absent exactly when there are no scores; otherwise it is the sum over the count, and lies between the lowest and the highest score |
| Rating.Shown | api_yamdb/api/v1/views.py:27-28 | the shown rating is absent exactly for no scores and otherwise lies between the lowest and the highest score |
| Filter.Matches | api_yamdb/api/v1/filter.py:5-12 | a title matches exactly when each supplied, non-empty parameter holds: `name` and `category` by folded substring, `genre` through some genre's slug, `year` exactly |
| Filter.TextMatchesMeaning | api_yamdb/api/v1/filter.py:7-8 | a text parameter holds exactly when it is absent, empty, or a folded substring of the field |
| Filter.GenreMatchesMeaning | api_yamdb/api/v1/filter.py:6 | the genre parameter holds exactly when it is absent, empty, or a folded substring of some genre slug of the title |
| Filter.NameFilter | api_yamdb/api/v1/filter.py:8 | `name` matches exactly when the folded query occurs in the folded title name |
| Filter.CategoryFilter | api_yamdb/api/v1/filter.py:7 | `category` matches exactly when the folded query occurs in the folded category slug |
| Filter.GenreFilter | api_yamdb/api/v1/filter.py:6 | `genre` matches exactly when the query is empty or occurs, folded, in the slug of some genre of the title |
| Filter.YearFilter | api_yamdb/api/v1/filter.py:12 | `year` is an exact comparison |
| Filter.NoFilter | api_yamdb/api/v1/filter.py:5-12 | without parameters every title matches |
| Filter.FiltersConjoin | api_yamdb/api/v1/filter.py:5-12 | a query matches exactly when each of its parameters matches on its own |
| Serializers.ValidateYear | api_yamdb/api/v1/serializers.py:43-47 | a year passes exactly when it is before the current year, unchanged; otherwise the year problem |
| Serializers.UsernameProblems | api_yamdb/api/v1/serializers.py:84-89 | a username has no problem exactly when it matches the pattern; otherwise it is blank or malformed |
| Serializers.EmailProblems | api_yamdb/api/v1/serializers.py:83 | an email has no problem exactly when it is non-blank and well-formed |
| Serializers.ValidateSignup | api_yamdb/api/v1/serializers.py:82-104 | a signup body passes exactly when both fields are well-formed, the username is not `me`, and neither value belongs to a stored user |
| Serializers.SignupCheckOrder | api_yamdb/api/v1/serializers.py:91-104 | with well-formed fields, `me` is reported first, then a taken username, and a taken email only for a free username |
| Serializers.ReservedNameRefused | api_yamdb/api/v1/serializers.py:92-95 | `me` is refused whatever the email and the stored users |
| Serializers.ValidateToken | api_yamdb/api/v1/serializers.py:107-114 | a token body passes exactly when the code is non-blank and the username matches the pattern; the problems name exactly the failing fields |
| Serializers.SameUsernameRule | api_yamdb/api/v1/serializers.py:84-111 | signup and token bodies accept exactly the same usernames |
| Serializers.ValidateReview | api_yamdb/api/v1/serializers.py:129-139 | a review body is refused exactly on POST when the requester has already reviewed the title |
| Serializers.MissingReviewFields | api_yamdb/api/v1/serializers.py:124-127 | a `PUT` of a review must carry score and text, naming each missing one; a `PATCH` may leave either out |
| Serializers.MissingCommentFields | api_yamdb/api/v1/serializers.py:149-152 | a `PUT` of a comment must carry its text; a `PATCH` may leave it out |
| Serializers.UpdateNeverDuplicate | api_yamdb/api/v1/serializers.py:135 | PUT and PATCH bodies always pass the duplicate rule |
| Serializers.Represent | api_yamdb/api/v1/views.py:35-38 | list and retrieve use the nested read representation, every other action the slug representation, both carrying the same title |
| Accounts.GetOrCreate | api_yamdb/api/v1/views.py:93 | returns a user holding both values, or inserts a fresh one exactly when neither value is in use, or else conflicts |
| Accounts.Signup | api_yamdb/api/v1/views.py:90-102 | a signup succeeds exactly when validation does, echoes the body, and adds exactly one plain user with that username and email |
| Accounts.ValidatedSignupCreates | api_yamdb/api/v1/views.py:93 | after validation, `get_or_create` always creates |
| Accounts.RepeatSignupRefused | api_yamdb/api/v1/views.py:90-93 | signing up again with an existing username and email is refused as a taken username |
| Accounts.SignupPreservesValid | api_yamdb/api/v1/views.py:90-102 | a signup keeps usernames and emails unique and every reference intact |
| Accounts.Token | api_yamdb/api/v1/views.py:110-120 | an invalid body is 400, an unknown username 404, and otherwise a token for that user is minted exactly when the code checks |
| Accounts.BadCodeGives400 | api_yamdb/api/v1/views.py:119-120 | a rejected code answers 400 without a token |
| Accounts.AccountPatchProblems | api_yamdb/api/v1/serializers.py:68-79 | a patch of one's account passes exactly when a supplied username matches the pattern and a supplied email is non-blank and well-formed, neither belonging to another user |
| Accounts.Me | api_yamdb/api/v1/views.py:74-82 | GET returns the caller; PATCH succeeds exactly when the supplied fields have no problem, writes each of them, keeps the caller's role, and changes no other user |
| Accounts.MeRefusesBlank | api_yamdb/api/v1/views.py:78-80 | a caller cannot blank their own username or email |
| Accounts.NoSelfPromotion | api_yamdb/api/v1/views.py:81 | a plain user who asks for the admin role through `me` remains a plain user |
| Accounts.MePreservesValid | api_yamdb/api/v1/views.py:78-81 | `me` keeps usernames and emails unique |
| Accounts.UserDetail | api_yamdb/api/v1/views.py:61-67 | users are addressed by the username the router extracted, within the searched queryset: found exactly when some user has it and it contains every search term |
| Accounts.UserDetailAgreesWithSearch | api_yamdb/api/v1/views.py:61-67 | a user is found under some search terms exactly when the list under those terms shows a user with that username |
| Accounts.SearchUsers | api_yamdb/api/v1/views.py:65-66 | the search returns exactly the users whose username contains every term |
| Catalog.ReviewsOf | api_yamdb/api/v1/views.py:128-130 | the reviews of a title are exactly those naming it |
| Catalog.ScoresOf | api_yamdb/api/v1/views.py:28 | position by position, the score of each review of the title, so exactly the scores those reviews carry with their multiplicity |
| Catalog.RatingOf | api_yamdb/api/v1/views.py:27-28 | the rating is absent exactly for an unreviewed title; otherwise some review scores at most and some at least the rating |
| Catalog.ListTitles | api_yamdb/api/v1/views.py:26-37 | the list holds exactly the matching titles, ascending by id, each in the read representation with its rating |
| Catalog.UnfilteredListHasAllTitles | api_yamdb/api/v1/views.py:27-33 | without parameters the list holds every stored title |
| Catalog.FindTitle | api_yamdb/api/v1/views.py:26-33 | a detail route finds a title exactly when it is stored and matches the query parameters of the request, since the lookup runs on the filtered queryset |
| Catalog.RetrieveTitle | api_yamdb/api/v1/views.py:26-37 | a stored title that matches the query parameters comes back nested with its rating; any other id, or a title the parameters exclude, is 404 |
| Catalog.RetrieveAgreesWithList | api_yamdb/api/v1/views.py:26-37 | a title is retrieved under some parameters exactly when the list under the same parameters shows it, and in the same representation |
| Catalog.TitleProblems | api_yamdb/api/v1/serializers.py:19-47 | a title body has no problem exactly when its year is past and every slug names a stored category or genre |
| Catalog.GenresBySlug | api_yamdb/api/v1/serializers.py:24-28 | the genres stored for a request are exactly the stored genres its slugs name |
| Catalog.GenresBySlugSlugs | api_yamdb/api/v1/serializers.py:24-28 | the slugs of the stored genres are exactly the requested slugs, each once |
| Catalog.CreateTitle | api_yamdb/api/v1/serializers.py:19-47 | a title is created exactly for a valid body, under a fresh id, with the named category and the set of named genres, and returned in the slug representation without a rating, its genre slugs being the requested ones |
| Catalog.RepeatedGenreStoredOnce | api_yamdb/api/v1/serializers.py:24-28 | a genre slug given twice is stored and returned once |
| Catalog.CreateTitlePreservesValid | api_yamdb/api/v1/serializers.py:19-47 | creating a title keeps the store's integrity rules, its genres being stored ones |
| Catalog.CreateTitleIgnoresReadOnly | api_yamdb/api/v1/serializers.py:29-41 | the client's `id` and `rating` never affect a create |
| Catalog.TitlePatchProblems | api_yamdb/api/v1/serializers.py:19-47 | a title patch has the year problem exactly for a supplied year not in the past, and an unknown-slug problem exactly for a supplied slug naming nothing stored |
| Catalog.UpdateTitle | api_yamdb/api/v1/serializers.py:19-47 | a partial update of a stored title that matches the query parameters succeeds exactly when its supplied fields are valid, writes name, year, description, category and genres when supplied, keeps them otherwise, and touches no other title |
| Catalog.EmptyPatchChangesNothing | api_yamdb/api/v1/serializers.py:19-47 | a patch supplying nothing, of a title the query parameters do not exclude, succeeds and leaves the store as it was |
| Catalog.UpdateTitlePreservesValid | api_yamdb/api/v1/serializers.py:19-47 | updating a title keeps the store's integrity rules |
| Catalog.CreateNamed | api_yamdb/api/v1/views.py:41-48 | a category or genre is added exactly when its slug is free, leaving the others unchanged |
| Catalog.SearchNamed | api_yamdb/api/v1/views.py:46-47 | the search returns exactly the entries whose name contains every term |
| Catalog.DestroyNamed | api_yamdb/api/v1/views.py:41-48 | deleting by slug removes exactly that entry, and is 404 for an unknown slug or an entry whose name misses a search term |
| Catalog.DestroyAgreesWithSearch | api_yamdb/api/v1/views.py:41-58 | a delete finds exactly the entries the list under the same search terms shows |
| Catalog.DestroyGenre | api_yamdb/api/v1/views.py:51-58 | deleting a genre by slug removes it from the genres and from every title's genres, changing nothing else, and is 404 for an unknown slug or a genre whose name misses a search term |
| Catalog.DestroyGenrePreservesValid | api_yamdb/api/v1/views.py:51-58 | deleting a genre keeps the store's integrity rules |
| Catalog.DestroyedGenreLeavesTitles | api_yamdb/api/v1/views.py:51-58 | after a genre is deleted no title holds a genre with its slug |
| Catalog.CreateThenDestroy | api_yamdb/api/v1/views.py:41-58 | creating an entry and deleting it by its slug, under search terms its name contains, restores the table |
| Catalog.Actions | api_yamdb/api/v1/views.py:41-58 | categories and genres offer only create, list and destroy; the other viewsets offer update too |
| Catalog.TaxonomyRoutes | api_yamdb/api/v1/views.py:41-67 | categories and genres cannot be retrieved or edited and are addressed by slug; users by username |
| Content.ListReviews | api_yamdb/api/v1/views.py:128-130 | listing reviews is 404 for an unknown title and otherwise yields exactly that title's reviews |
| Content.CreateReview | api_yamdb/api/v1/views.py:123-137 | anonymous is 401; a second review by one author is refused; an unknown title is 404; otherwise one review is added with the requester, the path title and the server time, so every authenticated first review of a stored title succeeds |
| Content.CreateReviewIgnoresReadOnly | api_yamdb/api/v1/serializers.py:117-127 | the client's `id`, `pub_date` and `author` never affect a created review |
| Content.SecondReviewRefused | api_yamdb/api/v1/serializers.py:129-139 | after a review is created, the same author's next review of the title is refused |
| Content.CreateReviewPreservesValid | api_yamdb/api/v1/views.py:132-137 | creating a review keeps one review per author and title and every reference intact |
| Content.UpdateReview | api_yamdb/api/v1/views.py:123-130 | an update looks the review up among the path title's reviews, defers to the object permission, refuses a permitted `PUT` missing a field with 400 naming exactly the missing fields, and writes only the supplied score and text |
| Content.PatchKeepsOmittedFields | api_yamdb/api/v1/views.py:123-130 | a `PATCH` leaves the text it does not carry, and the score it does not carry, as stored |
| Content.UpdateReviewPreservesValid | api_yamdb/api/v1/views.py:123-130 | updating a review keeps the store's integrity rules |
| Content.ResolveReview | api_yamdb/api/v1/views.py:145-151 | a comment path resolves exactly when the review exists, the title exists and the review belongs to it |
| Content.ListComments | api_yamdb/api/v1/views.py:145-151 | listing comments is 404 unless the path resolves, and otherwise yields exactly that review's comments |
| Content.CreateComment | api_yamdb/api/v1/views.py:153-162 | an authenticated create succeeds exactly when the path resolves and adds one comment with that review, the requester and the server time |
| Content.CreateCommentIgnoresReadOnly | api_yamdb/api/v1/serializers.py:142-152 | the client's `id`, `pub_date` and `author` never affect a created comment |
| Content.CreateCommentPreservesValid | api_yamdb/api/v1/views.py:153-162 | creating a comment keeps every reference intact |
| Content.UpdateComment | api_yamdb/api/v1/views.py:140-151 | an update finds the comment among the resolved review's comments, refuses with 403 exactly when the object permission does, refuses a permitted `PUT` without text with 400 naming the text field, succeeds otherwise, and writes the text only when supplied |
| Content.DestroyComment | api_yamdb/api/v1/views.py:140-151 | a delete of a comment of the resolved review is refused with 403 exactly when the object permission does, and otherwise succeeds and removes exactly that comment and nothing else |
| Content.CommentChangesPreserveValid | api_yamdb/api/v1/views.py:140-151 | editing or deleting a comment keeps the store's integrity rules |

The signup view answers a repeated signup as the code does. The `get_or_create`
call at views.py:93 suggests an existing account could ask for its code again.
But the validator at serializers.py:96-99 already refuses a taken username, so a
repeated signup is answered 400 (`Accounts.RepeatSignupRefused`). The fetch
branch of `GetOrCreate` is kept in the model, and `Accounts.ValidatedSignupCreates`
shows it is unreachable.

## Left out

- Mail: the confirmation mail of the signup view is not modelled; the code is checked through `codeOk`.
- Token internals: how the confirmation code and the JWT access token are generated and signed; the token is an opaque `AccessToken(user)`.
- Permission classes: their bodies are not part of this model. The view-level "authenticated or read-only" rule is modelled (`Content.Authenticated`); object permissions are the parameter `mayEdit`. The admin-only rules of titles, categories, genres and users are not modelled, so those handlers are the admin's view.
- Text.IsWordChar: `\w` is modelled as ASCII letters, digits and underscore plus the basic Cyrillic block; Python's regex also accepts the letters and digits of every other script.
- Text.Lower: case folding covers the ASCII letters A–Z and the basic Cyrillic letters; other scripts are not folded. On SQLite, whose `LIKE` folds ASCII only, the Cyrillic part would not hold.
- Text.LowerChar: accented and extended Latin letters (`É`, `Ä`, `Ł`, …) are not folded, although PostgreSQL's `UPPER()` under a Unicode locale folds them, so `?name=école` finds "École" in the program but not in the model.
- Text.IContainsMeaning: states `icontains` in terms of `Text.Lower`, so it inherits the folding limits of the previous line.
- Serializers.EmailProblems: the email address format is the parameter `emailOk`; Django's email validator is not modelled, nor its length limits.
- Field handling: the whitespace trimming and length limits of the serializer fields are not modelled. Trimming strips a trailing newline before the username pattern runs, so in the program `\Z` never sees trailing whitespace; `Text.TrailingNewlineRejected` is about the pattern alone. A create body is assumed to carry its required fields, and the blank rule of review and comment text depends on model field options outside this model.
- Filter.Matches: `Query` holds the cleaned form values of the filter. The form fields strip surrounding whitespace first, so `?genre=%20drama` filters on `drama` and a value of only spaces is ignored; the model expects values already stripped. A `year` that does not parse as an integer makes the filter set invalid and is answered with 400 on the list and detail routes of titles; the model's `year` has already parsed, so that answer is not modelled.
- Search terms: the search filter's splitting of the query into terms and its quoting rules are not modelled; terms arrive already split (`Text.MatchesTerms`).
- Rating.TruncatedQuotient: the mean is computed exactly, so floating-point rounding of `Avg` is not modelled.
- Store.NextKey: database id sequences are not modelled; a fresh id is one more than the largest stored id.
- Catalog.ReviewsOf: reviews are listed by ascending id; the program's order comes from the ordering options of the models module, which is not part of this model.
- Content.ListReviews: listed by ascending id for the same reason as the previous line.
- Content.ListComments: listed by ascending id; the program's order comes from the models module.
- Catalog.DestroyNamed: for categories, titles keep their copy of a deleted category; what the program does to them is the `on_delete` rule of the models module, not part of this model. Genre deletion is modelled on the whole store by `Catalog.DestroyGenre`.
- Catalog.ListTitles: a title matching the genre filter through several genres is listed once; the join multiplicity of the ORM query is not modelled.
- Concurrency: requests are atomic; a race between the duplicate-review check and the insert is not modelled.
- Model rules: the score range, deletion cascades and the default role live in the models module, which is not part of this model. Scores are unconstrained integers, and new users get the plain user role.
- Deletes: deleting a title or a review cascades to reviews and comments by rules of the models module, so those deletes are left out. Deleting a user through the users resource is left out for the same reason.
- Accounts.Me: the username and email rules of signup are applied to a patch, and uniqueness against other users; other rules of the user model (length limits, the rules of the name and bio fields) are not part of this model.
- Users resource writes: admin create, update and delete of users run the plain model serializer and are not modelled; only lookup and search are.
- Catalog.UpdateTitle: only the partial update is modelled; a full `PUT` additionally requires every writable field.
- Accounts.UserDetail: the username arrives as the value the router extracted from the path. The router's default lookup pattern `[^/.]+` and its format-suffix routes mean that a username containing `.` is not reachable (`/users/john.doe/` is 404, `/users/bob.json/` is the user `bob` in JSON), and `/users/me/` is the `me` action, so a user renamed to `me` cannot be fetched by this route; the model finds all of them.
- Routing: the URL patterns are summarised by `Catalog.Actions` and `Catalog.LookupField`; path parsing is not modelled.

=== FILE: accounts.dfy ===
/** The account endpoints: signup, token exchange, the self-service `me`
    endpoint and the lookup of users by username. */
module Accounts {
  import opened Common
  import opened Text
  import opened Store
  import opened Serializers

  /** The record a signup creates: the submitted username and email, the plain
      user role and empty profile fields. */
  function NewAccount(username: string, email: string): Account
  {
    Account(username, email, "", "", "", User)
  }

  /** What `get_or_create(username=…, email=…)` does to the directory. */
  datatype Fetched = Found(id: nat) | Created(db: Db, id: nat) | Conflict

  /** `get_or_create`: return the user holding both values, or else insert a new
      one; the insert violates a unique constraint when either value is in use. */
  function GetOrCreate(db: Db, username: string, email: string): (r: Fetched)
    ensures r.Found? ==>
      r.id in db.users && db.users[r.id].username == username && db.users[r.id].email == email
    ensures r.Created? <==> !UsernameTaken(db.users, username) && !EmailTaken(db.users, email)
    ensures r.Created? ==>
      r.id !in db.users && r.db == db.(users := db.users[r.id := NewAccount(username, email)])
    ensures r.Conflict? ==>
      forall k :: k in db.users ==> db.users[k].username != username || db.users[k].email != email
  {
    var same := Where(db.users, (a: Account) => a.username == username && a.email == email);
    if same != [] then Found(same[0])
    else if UsernameTaken(db.users, username) || EmailTaken(db.users, email) then Conflict
    else
      var id := NextKey(db.users);
      Created(db.(users := db.users[id := NewAccount(username, email)]), id)
  }

  /** A successful signup: the new store, the id of the account the confirmation
      code is issued to, and the echoed request body. */
  datatype SignedUp = SignedUp(db: Db, account: nat, echoed: SignupData)

  /** `POST /auth/signup/`: validate, then get or create the account. The mail
      carrying the confirmation code is not modelled. */
  function Signup(db: Db, data: SignupData, emailOk: string -> bool): (r: Result<SignedUp>)
    ensures r.Ok? <==> ValidateSignup(db, data, emailOk).Ok?
    ensures r.Err? ==> r.error == ValidateSignup(db, data, emailOk).error
    ensures r.Ok? ==>
      && r.value.echoed == data
      && r.value.account !in db.users
      && r.value.db == db.(users := db.users[r.value.account := NewAccount(data.username, data.email)])
      && |r.value.db.users| == |db.users| + 1
  {
    match ValidateSignup(db, data, emailOk)
    case Err(e) => Err(e)
    case Ok(d) =>
      match GetOrCreate(db, d.username, d.email)
      case Found(id) => Ok(SignedUp(db, id, d))
      case Created(db', id) =>
        assert db'.users.Keys == db.users.Keys + {id};
        Ok(SignedUp(db', id, d))
      case Conflict => Err(IntegrityError)
  }

  /** Validation leaves `get_or_create` nothing to get and nothing to conflict
      with: a validated signup always creates the account. */
  lemma ValidatedSignupCreates(db: Db, data: SignupData, emailOk: string -> bool)
    requires ValidateSignup(db, data, emailOk).Ok?
    ensures GetOrCreate(db, data.username, data.email).Created?
  {
  }

  /** Repeating a signup with the username and email of an existing account is
      refused as a taken username; it never reaches `get_or_create` to fetch the
      existing account and resend a code. */
  lemma RepeatSignupRefused(db: Db, data: SignupData, emailOk: string -> bool, existing: nat)
    requires SignupFieldsOk(data, emailOk) && data.username != "me"
    requires existing in db.users
    requires db.users[existing].username == data.username && db.users[existing].email == data.email
    ensures Signup(db, data, emailOk) == Err(Invalid({Taken(Username)}))
  {
  }

  /** A signup keeps usernames and emails unique and every reference intact. */
  lemma SignupPreservesValid(db: Db, data: SignupData, emailOk: string -> bool)
    requires Valid(db)
    requires Signup(db, data, emailOk).Ok?
    ensures Valid(Signup(db, data, emailOk).value.db)
  {
    var s := Signup(db, data, emailOk).value;
    var users := s.db.users;
    forall a, b | a in users && b in users && a != b
      ensures users[a].username != users[b].username && users[a].email != users[b].email
    {
      if a == s.account {
        assert db.users[b].username != data.username;
        assert db.users[b].email != data.email;
      } else if b == s.account {
        assert db.users[a].username != data.username;
        assert db.users[a].email != data.email;
      }
    }
  }

  /** The bearer token minted for a user; its signature is not modelled. */
  datatype AccessToken = AccessToken(user: nat)

  /** `POST /auth/token/`: validate the body, look the user up by username, then
      check the confirmation code with `codeOk`. */
  function Token(db: Db, data: TokenData, codeOk: (Account, string) -> bool): (r: Result<AccessToken>)
    ensures ValidateToken(data).Err? ==> r == Err(ValidateToken(data).error)
    ensures ValidateToken(data).Ok? && !UsernameTaken(db.users, data.username) ==> r == Err(NotFound)
    ensures ValidateToken(data).Ok? && UsernameTaken(db.users, data.username) ==>
      var id := FindUsername(db.users, data.username).value;
      && (r.Ok? <==> codeOk(db.users[id], data.confirmationCode))
      && (r.Err? ==> r.error == CodeRejected)
    ensures r.Ok? ==>
      && r.value.user in db.users
      && db.users[r.value.user].username == data.username
      && codeOk(db.users[r.value.user], data.confirmationCode)
  {
    match ValidateToken(data)
    case Err(e) => Err(e)
    case Ok(d) =>
      match FindUsername(db.users, d.username)
      case None => Err(NotFound)
      case Some(id) =>
        if codeOk(db.users[id], d.confirmationCode) then Ok(AccessToken(id))
        else Err(CodeRejected)
  }

  /** A rejected code is answered with status 400 and mints no token. */
  lemma BadCodeGives400(db: Db, data: TokenData, codeOk: (Account, string) -> bool)
    requires ValidateToken(data).Ok? && UsernameTaken(db.users, data.username)
    requires !codeOk(db.users[FindUsername(db.users, data.username).value], data.confirmationCode)
    ensures Token(db, data, codeOk).Err?
    ensures Status(Token(db, data, codeOk).error) == 400
  {
  }

  /** A partial update of an account: `None` leaves the field as it is. */
  datatype AccountPatch = AccountPatch(
    username: Option<string>,
    email: Option<string>,
    firstName: Option<string>,
    lastName: Option<string>,
    bio: Option<string>,
    role: Option<Role>)

  /** A request to `/users/me/`. */
  datatype MeRequest = ReadMe | UpdateMe(patch: AccountPatch)


  /** The account with every supplied field of the patch written over it. */
  function Patched(a: Account, p: AccountPatch): Account
  {
    Account(Pick(p.username, a.username), Pick(p.email, a.email),
            Pick(p.firstName, a.firstName), Pick(p.lastName, a.lastName),
            Pick(p.bio, a.bio), Pick(p.role, a.role))
  }

  /** A user other than `self` has username `name`. */
  predicate UsernameTakenByOther(users: map<nat, Account>, self: nat, name: string)
  {
    exists k | k in users :: k != self && users[k].username == name
  }

  /** A user other than `self` has email `email`. */
  predicate EmailTakenByOther(users: map<nat, Account>, self: nat, email: string)
  {
    exists k | k in users :: k != self && users[k].email == email
  }

  /** The problems of a patch of account `self`. A supplied username or email is
      checked like a signup field (blank first, then the format), and a non-blank
      one must not belong to another user; all problems are reported together. */
  function AccountPatchProblems(users: map<nat, Account>, self: nat, p: AccountPatch,
                                emailOk: string -> bool): (ps: set<Problem>)
    ensures ps == {} <==>
      && (p.username.Some? ==>
            UsernamePattern(p.username.value) && !UsernameTakenByOther(users, self, p.username.value))
      && (p.email.Some? ==>
            p.email.value != "" && emailOk(p.email.value) && !EmailTakenByOther(users, self, p.email.value))
    ensures Taken(Username) in ps <==>
      p.username.Some? && p.username.value != "" && UsernameTakenByOther(users, self, p.username.value)
    ensures Taken(Email) in ps <==>
      p.email.Some? && p.email.value != "" && EmailTakenByOther(users, self, p.email.value)
  {
    var username :=
      if p.username.None? then {}
      else if p.username.value == "" then {Blank(Username)}
      else UsernameProblems(p.username.value)
           + (if UsernameTakenByOther(users, self, p.username.value) then {Taken(Username)} else {});
    var email :=
      if p.email.None? then {}
      else if p.email.value == "" then {Blank(Email)}
      else EmailProblems(p.email.value, emailOk)
           + (if EmailTakenByOther(users, self, p.email.value) then {Taken(Email)} else {});
    username + email
  }

  /** `GET` and `PATCH /users/me/`. Reading returns the caller's own record. A patch
      is validated, applied partially and saved with the caller's current role, so
      the payload can never change it. */
  function Me(db: Db, caller: Option<nat>, req: MeRequest, emailOk: string -> bool): (r: Result<(Db, Account)>)
    ensures caller.None? || caller.value !in db.users ==> r == Err(NotAuthenticated)
    ensures r.Ok? ==>
      && caller.Some? && caller.value in db.users
      && r.value.1.role == db.users[caller.value].role
      && r.value.0 == db.(users := db.users[caller.value := r.value.1])
    ensures r.Ok? && req.ReadMe? ==> r.value == (db, db.users[caller.value])
    ensures r.Ok? && req.UpdateMe? ==>
      var before, after, p := db.users[caller.value], r.value.1, req.patch;
      && after.username == Pick(p.username, before.username)
      && after.email == Pick(p.email, before.email)
      && after.firstName == Pick(p.firstName, before.firstName)
      && after.lastName == Pick(p.lastName, before.lastName)
      && after.bio == Pick(p.bio, before.bio)
    ensures r.Err? && caller.Some? && caller.value in db.users ==>
      req.UpdateMe? && r.error == Invalid(AccountPatchProblems(db.users, caller.value, req.patch, emailOk))
    ensures caller.Some? && caller.value in db.users ==>
      (r.Ok? <==> req.ReadMe? || AccountPatchProblems(db.users, caller.value, req.patch, emailOk) == {})
  {
    if caller.None? || caller.value !in db.users then Err(NotAuthenticated)
    else
      var self := db.users[caller.value];
      match req
      case ReadMe => Ok((db, self))
      case UpdateMe(p) =>
        var problems := AccountPatchProblems(db.users, caller.value, p, emailOk);
        if problems != {} then Err(Invalid(problems))
        else
          var saved := Patched(self, p).(role := self.role);
          Ok((db.(users := db.users[caller.value := saved]), saved))
  }

  /** A caller cannot blank their own username or email. */
  lemma MeRefusesBlank(db: Db, caller: nat, p: AccountPatch, emailOk: string -> bool)
    requires caller in db.users
    requires p.username == Some("") || p.email == Some("")
    ensures Me(db, Some(caller), UpdateMe(p), emailOk).Err?
    ensures p.username == Some("") ==>
      Blank(Username) in Me(db, Some(caller), UpdateMe(p), emailOk).error.problems
    ensures p.email == Some("") ==>
      Blank(Email) in Me(db, Some(caller), UpdateMe(p), emailOk).error.problems
  {
  }

  /** A user asking for the admin role through `me` keeps the role they had. */
  lemma NoSelfPromotion(db: Db, caller: nat, p: AccountPatch, emailOk: string -> bool)
    requires caller in db.users && db.users[caller].role == User
    requires Me(db, Some(caller), UpdateMe(p.(role := Some(Admin))), emailOk).Ok?
    ensures Me(db, Some(caller), UpdateMe(p.(role := Some(Admin))), emailOk).value.1.role == User
  {
  }

  /** Updating one's own record keeps the store consistent. */
  lemma MePreservesValid(db: Db, caller: Option<nat>, req: MeRequest, emailOk: string -> bool)
    requires Valid(db)
    requires Me(db, caller, req, emailOk).Ok?
    ensures Valid(Me(db, caller, req, emailOk).value.0)
  {
  }

  /** `GET /users/{username}/`: the users resource is keyed by username, and the
      lookup runs on the searched queryset, so a user whose username misses a
      `?search=` term of the request is not found. */
  function UserDetail(db: Db, username: string, terms: seq<string>): (r: Result<nat>)
    ensures r.Err? <==> !UsernameTaken(db.users, username) || !MatchesTerms(username, terms)
    ensures r.Err? ==> r.error == NotFound
    ensures r.Ok? ==> r.value in db.users && db.users[r.value].username == username
  {
    match FindUsername(db.users, username)
    case None => Err(NotFound)
    case Some(id) => if MatchesTerms(db.users[id].username, terms) then Ok(id) else Err(NotFound)
  }

  /** `GET /users/?search=…`: the users whose username contains every search term. */
  function SearchUsers(db: Db, terms: seq<string>): (r: seq<nat>)
    ensures forall k :: k in r <==> k in db.users && MatchesTerms(db.users[k].username, terms)
  {
    Where(db.users, (a: Account) => MatchesTerms(a.username, terms))
  }

  /** A user is found under some search terms exactly when the users list under the
      same terms shows a user with that username. */
  lemma UserDetailAgreesWithSearch(db: Db, username: string, terms: seq<string>)
    ensures UserDetail(db, username, terms).Ok? <==>
      exists k :: k in SearchUsers(db, terms) && db.users[k].username == username
  {
  }
}

=== FILE: catalog.dfy ===
/** The catalog endpoints: titles with their derived rating, ordering, filter
    and serializer choice; categories and genres; and the actions and lookup
    keys each viewset offers. */
module Catalog {
  import opened Common
  import opened Text
  import opened Store
  import opened Rating
  import opened Filter
  import opened Serializers

  /** The ids of the reviews of title `id`, ascending. */
  function ReviewsOf(db: Db, id: nat): (ks: seq<nat>)
    ensures Increasing(ks)
    ensures forall k :: k in ks <==> k in db.reviews && db.reviews[k].title == id
  {
    Where(db.reviews, (r: Review) => r.title == id)
  }

  /** The scores `Avg` aggregates for title `id`: one per review of the title, and
      exactly the scores those reviews carry. */
  function ScoresOf(db: Db, id: nat): (s: seq<int>)
    ensures |s| == |ReviewsOf(db, id)|
    ensures forall i :: 0 <= i < |s| ==> s[i] == db.reviews[ReviewsOf(db, id)[i]].score
    ensures forall x :: x in s <==>
      exists k :: k in db.reviews && db.reviews[k].title == id && db.reviews[k].score == x
  {
    var ks := ReviewsOf(db, id);
    var s := seq(|ks|, i requires 0 <= i < |ks| => db.reviews[ks[i]].score);
    forall x | x in s
      ensures exists k :: k in db.reviews && db.reviews[k].title == id && db.reviews[k].score == x
    {
      var i :| 0 <= i < |s| && s[i] == x;
      assert ks[i] in ks;
    }
    forall k | k in db.reviews && db.reviews[k].title == id
      ensures db.reviews[k].score in s
    {
      var i :| 0 <= i < |ks| && ks[i] == k;
      assert s[i] == db.reviews[k].score;
    }
    s
  }

  /** Title `id` has at least one review. */
  predicate Reviewed(db: Db, id: nat)
  {
    exists k | k in db.reviews :: db.reviews[k].title == id
  }

  /** The `rating` of title `id`: absent when it has no reviews, otherwise the
      average of its scores truncated to an integer, which lies between its
      lowest and its highest score. */
  function RatingOf(db: Db, id: nat): (r: Option<int>)
    ensures r.None? <==> !Reviewed(db, id)
    ensures r.Some? ==> r.value == TruncatedQuotient(Sum(ScoresOf(db, id)), |ScoresOf(db, id)|)
    ensures r.Some? ==>
      && (exists k :: k in db.reviews && db.reviews[k].title == id && db.reviews[k].score <= r.value)
      && (exists k :: k in db.reviews && db.reviews[k].title == id && r.value <= db.reviews[k].score)
  {
    var ks := ReviewsOf(db, id);
    var scores := ScoresOf(db, id);
    var r := Shown(scores);
    if r.Some? then
      assert Min(scores) in scores && Max(scores) in scores;
      r
    else
      assert forall k :: k in db.reviews && db.reviews[k].title == id ==> k in ks;
      r
  }

  /** Stored title `id` in the read representation, with its rating. */
  function ReadOf(db: Db, id: nat): (r: TitleRepr)
    requires id in db.titles
    ensures r.ReadRepr? && r.id == id
  {
    Represent(id, db.titles[id], RatingOf(db, id), List)
  }

  /** `GET /titles/`: the titles passing the filter, in ascending id order, each in
      the read representation with its rating. */
  function ListTitles(db: Db, q: Query): (r: seq<TitleRepr>)
    ensures forall i :: 0 <= i < |r| ==>
      r[i].id in db.titles && Matches(db.titles[r[i].id], q) && r[i] == ReadOf(db, r[i].id)
    ensures forall i, j :: 0 <= i < j < |r| ==> r[i].id < r[j].id
    ensures forall k :: k in db.titles && Matches(db.titles[k], q) ==>
      exists i :: 0 <= i < |r| && r[i].id == k
  {
    var ks := Where(db.titles, (t: Title) => Matches(t, q));
    var r := seq(|ks|, i requires 0 <= i < |ks| => ReadOf(db, ks[i]));
    forall k | k in db.titles && Matches(db.titles[k], q)
      ensures exists i :: 0 <= i < |r| && r[i].id == k
    {
      var i :| 0 <= i < |ks| && ks[i] == k;
      assert r[i].id == k;
    }
    r
  }

  /** Without parameters the list holds every stored title. */
  lemma UnfilteredListHasAllTitles(db: Db)
    ensures forall k :: k in db.titles ==>
      exists i :: 0 <= i < |ListTitles(db, NoQuery)| && ListTitles(db, NoQuery)[i].id == k
  {
    var r := ListTitles(db, NoQuery);
    forall k | k in db.titles
      ensures exists i :: 0 <= i < |r| && r[i].id == k
    {
      NoFilter(db.titles[k]);
    }
  }

  /** The title a detail route of `/titles/{id}/` acts on. The detail lookup runs
      on the filtered queryset, so a stored title that the query parameters of the
      request exclude is not found either. */
  function FindTitle(db: Db, id: nat, q: Query): (r: Result<Title>)
    ensures r.Ok? <==> id in db.titles && Matches(db.titles[id], q)
    ensures r.Err? ==> r.error == NotFound
    ensures r.Ok? ==> r.value == db.titles[id]
  {
    if id !in db.titles || !Matches(db.titles[id], q) then Err(NotFound)
    else Ok(db.titles[id])
  }

  /** `GET /titles/{id}/`: one title in the read representation. */
  function RetrieveTitle(db: Db, id: nat, q: Query): (r: Result<TitleRepr>)
    ensures r.Err? <==> id !in db.titles || !Matches(db.titles[id], q)
    ensures r.Err? ==> r.error == NotFound
    ensures r.Ok? ==>
      && r.value.ReadRepr? && r.value.id == id && r.value.rating == RatingOf(db, id)
      && r.value.category == db.titles[id].category && r.value.genres == db.titles[id].genres
  {
    match FindTitle(db, id, q)
    case Err(e) => Err(e)
    case Ok(t) => Ok(Represent(id, t, RatingOf(db, id), Retrieve))
  }

  /** A title is retrieved under some query parameters exactly when the list under
      the same parameters shows it, and both give the same representation. */
  lemma RetrieveAgreesWithList(db: Db, id: nat, q: Query)
    ensures RetrieveTitle(db, id, q).Ok? <==>
      exists i :: 0 <= i < |ListTitles(db, q)| && ListTitles(db, q)[i].id == id
    ensures forall i :: 0 <= i < |ListTitles(db, q)| && ListTitles(db, q)[i].id == id ==>
      RetrieveTitle(db, id, q) == Ok(ListTitles(db, q)[i])
  {
    var r := ListTitles(db, q);
    if id in db.titles && Matches(db.titles[id], q) {
      assert exists i :: 0 <= i < |r| && r[i].id == id;
    }
  }

  /** Every slug of `slugs` names a stored genre. */
  predicate KnownGenres(db: Db, slugs: seq<string>)
  {
    forall i | 0 <= i < |slugs| :: slugs[i] in db.genres
  }

  /** The field problems of a title body: the year rule and the slugs that name
      no stored category or genre; all of them are reported together. */
  function TitleProblems(db: Db, year: int, category: string, genre: seq<string>, today: int): (ps: set<Problem>)
    ensures ps == {} <==> year < today && category in db.categories && KnownGenres(db, genre)
    ensures YearNotPast in ps <==> !(year < today)
  {
    (if ValidateYear(year, today).Err? then {YearNotPast} else {})
    + (if category !in db.categories then {Unknown(Category)} else {})
    + (if !KnownGenres(db, genre) then {Unknown(Genre)} else {})
  }

  /** The stored genres named by `slugs`. The genre field is many-to-many, so the
      result is a set: a slug given twice names one genre, and no order is kept. */
  function GenresBySlug(db: Db, slugs: seq<string>): (gs: set<Named>)
    requires KnownGenres(db, slugs)
    ensures forall g :: g in gs <==> exists i :: 0 <= i < |slugs| && g == db.genres[slugs[i]]
  {
    set i | 0 <= i < |slugs| :: db.genres[slugs[i]]
  }

  /** The slugs of the genres stored for a request are exactly the requested slugs,
      each once. */
  lemma GenresBySlugSlugs(db: Db, slugs: seq<string>)
    requires KnownGenres(db, slugs) && GenreKeysAgree(db)
    ensures forall x :: (exists g :: g in GenresBySlug(db, slugs) && g.slug == x) <==> x in slugs
  {
    var gs := GenresBySlug(db, slugs);
    forall x | x in slugs
      ensures exists g :: g in gs && g.slug == x
    {
      var i :| 0 <= i < |slugs| && slugs[i] == x;
      assert db.genres[slugs[i]] in gs;
    }
  }

  /** `POST /titles/`: validate the body and insert the title under a fresh id. The
      read-only `id` and `rating` of the body are ignored; the response uses the
      write representation. */
  function CreateTitle(db: Db, p: TitlePayload, today: int): (r: Result<(Db, TitleRepr)>)
    ensures r.Ok? <==> p.year < today && p.category in db.categories && KnownGenres(db, p.genre)
    ensures r.Err? ==> r.error == Invalid(TitleProblems(db, p.year, p.category, p.genre, today))
    ensures r.Ok? ==>
      var (db', repr) := r.value;
      && repr.WriteRepr? && repr.id !in db.titles && repr.id in db'.titles && repr.rating.None?
      && db' == db.(titles := db.titles[repr.id := db'.titles[repr.id]])
      && |db'.titles| == |db.titles| + 1
      && var t := db'.titles[repr.id];
      && t.name == p.name && t.year == p.year && t.description == p.description
      && t.category == db.categories[p.category]
      && (forall g :: g in t.genres <==> exists i :: 0 <= i < |p.genre| && g == db.genres[p.genre[i]])
      && (GenreKeysAgree(db) ==> forall x :: x in repr.genreSlugs <==> x in p.genre)
  {
    var problems := TitleProblems(db, p.year, p.category, p.genre, today);
    if problems != {} then Err(Invalid(problems))
    else
      var id := NextKey(db.titles);
      var t := Title(p.name, p.year, p.description, db.categories[p.category], GenresBySlug(db, p.genre));
      var titles := db.titles[id := t];
      assert titles.Keys == db.titles.Keys + {id};
      var repr := Represent(id, t, None, Create);
      assert GenreKeysAgree(db) ==> forall x :: x in repr.genreSlugs <==> x in p.genre by {
        if GenreKeysAgree(db) {
          GenresBySlugSlugs(db, p.genre);
        }
      }
      Ok((db.(titles := titles), repr))
  }

  /** A genre slug given twice is stored, and returned, once. */
  lemma RepeatedGenreStoredOnce(db: Db, p: TitlePayload, today: int, slug: string)
    requires p.genre == [slug, slug]
    requires GenreKeysAgree(db)
    requires CreateTitle(db, p, today).Ok?
    ensures |CreateTitle(db, p, today).value.1.genreSlugs| == 1
  {
    var repr := CreateTitle(db, p, today).value.1;
    assert repr.genreSlugs == {slug};
  }

  /** Client values of the read-only `id` and `rating` never influence a create. */
  lemma CreateTitleIgnoresReadOnly(db: Db, p: TitlePayload, id: Option<nat>, rating: Option<int>, today: int)
    ensures CreateTitle(db, p.(id := id, rating := rating), today) == CreateTitle(db, p, today)
  {
  }

  /** Creating a title keeps the store valid: its genres are stored ones. */
  lemma CreateTitlePreservesValid(db: Db, p: TitlePayload, today: int)
    requires Valid(db)
    requires CreateTitle(db, p, today).Ok?
    ensures Valid(CreateTitle(db, p, today).value.0)
  {
  }

  /** A partial update of a title; `None` leaves the field as it is. `rating` is
      read-only and ignored. */
  datatype TitlePatch = TitlePatch(
    rating: Option<int>,
    name: Option<string>,
    year: Option<int>,
    description: Option<string>,
    category: Option<string>,
    genre: Option<seq<string>>)

  /** The field problems of a title patch: only the supplied fields are checked. */
  function TitlePatchProblems(db: Db, p: TitlePatch, today: int): (ps: set<Problem>)
    ensures YearNotPast in ps <==> p.year.Some? && !(p.year.value < today)
    ensures Unknown(Category) in ps <==> p.category.Some? && p.category.value !in db.categories
    ensures Unknown(Genre) in ps <==> p.genre.Some? && !KnownGenres(db, p.genre.value)
    ensures ps <= {YearNotPast, Unknown(Category), Unknown(Genre)}
  {
    (if p.year.Some? && ValidateYear(p.year.value, today).Err? then {YearNotPast} else {})
    + (if p.category.Some? && p.category.value !in db.categories then {Unknown(Category)} else {})
    + (if p.genre.Some? && !KnownGenres(db, p.genre.value) then {Unknown(Genre)} else {})
  }

  /** `PATCH /titles/{id}/`: only the supplied fields are validated and written;
      a supplied year must still lie before the current year, and supplied slugs
      must name stored entries. */
  function UpdateTitle(db: Db, id: nat, q: Query, p: TitlePatch, today: int): (r: Result<(Db, TitleRepr)>)
    ensures id !in db.titles || !Matches(db.titles[id], q) ==> r == Err(NotFound)
    ensures id in db.titles && Matches(db.titles[id], q) ==>
      (r.Ok? <==>
        && (p.year.Some? ==> p.year.value < today)
        && (p.category.Some? ==> p.category.value in db.categories)
        && (p.genre.Some? ==> KnownGenres(db, p.genre.value)))
    ensures r.Err? && id in db.titles && Matches(db.titles[id], q) ==>
      r.error == Invalid(TitlePatchProblems(db, p, today))
    ensures r.Ok? ==> id in db.titles && Matches(db.titles[id], q) && id in r.value.0.titles
    ensures r.Ok? ==>
      var (db', repr) := r.value;
      var before, after := db.titles[id], db'.titles[id];
      && repr.WriteRepr? && repr.id == id && repr.rating == RatingOf(db, id)
      && db' == db.(titles := db.titles[id := after])
      && after.name == Pick(p.name, before.name)
      && after.year == Pick(p.year, before.year)
      && after.description == Pick(p.description, before.description)
      && after.category == (if p.category.Some? then db.categories[p.category.value] else before.category)
      && (p.genre.None? ==> after.genres == before.genres)
      && (p.genre.Some? ==>
            forall g :: g in after.genres <==>
              exists i :: 0 <= i < |p.genre.value| && g == db.genres[p.genre.value[i]])
  {
    match FindTitle(db, id, q)
    case Err(e) => Err(e)
    case Ok(before) =>
      var problems := TitlePatchProblems(db, p, today);
      if problems != {} then Err(Invalid(problems))
      else
        var t := Title(
          Pick(p.name, before.name), Pick(p.year, before.year), Pick(p.description, before.description),
          if p.category.Some? then db.categories[p.category.value] else before.category,
          if p.genre.Some? then GenresBySlug(db, p.genre.value) else before.genres);
        var db' := db.(titles := db.titles[id := t]);
        Ok((db', Represent(id, t, RatingOf(db, id), PartialUpdate)))
  }

  /** A patch that supplies nothing leaves the store as it was. */
  lemma EmptyPatchChangesNothing(db: Db, id: nat, q: Query, rating: Option<int>, today: int)
    requires id in db.titles && Matches(db.titles[id], q)
    ensures UpdateTitle(db, id, q, TitlePatch(rating, None, None, None, None, None), today).Ok?
    ensures UpdateTitle(db, id, q, TitlePatch(rating, None, None, None, None, None), today).value.0 == db
  {
    var t := db.titles[id];
    assert t == t.(name := t.name);
    assert db.titles[id := t] == db.titles;
  }

  /** Updating a title keeps the store valid: supplied genres are stored ones. */
  lemma UpdateTitlePreservesValid(db: Db, id: nat, q: Query, p: TitlePatch, today: int)
    requires Valid(db)
    requires UpdateTitle(db, id, q, p, today).Ok?
    ensures Valid(UpdateTitle(db, id, q, p, today).value.0)
  {
  }

  /** `POST /categories/` and `POST /genres/`: the slug must be free. */
  function CreateNamed(m: map<string, Named>, n: Named): (r: Result<map<string, Named>>)
    ensures r.Err? <==> n.slug in m
    ensures r.Err? ==> r.error == Invalid({Taken(Slug)})
    ensures r.Ok? ==> r.value.Keys == m.Keys + {n.slug} && r.value[n.slug] == n && |r.value| == |m| + 1
    ensures r.Ok? ==> forall s :: s in m ==> r.value[s] == m[s]
  {
    if n.slug in m then Err(Invalid({Taken(Slug)}))
    else
      var m' := m[n.slug := n];
      assert m'.Keys == m.Keys + {n.slug};
      Ok(m')
  }

  /** `GET /categories/?search=…` and `GET /genres/?search=…`: the entries whose
      name contains every search term. */
  function SearchNamed(m: map<string, Named>, terms: seq<string>): (r: map<string, Named>)
    ensures r.Keys <= m.Keys
    ensures forall s :: s in m ==> (s in r <==> MatchesTerms(m[s].name, terms))
    ensures forall s :: s in r ==> r[s] == m[s]
  {
    map s | s in m && MatchesTerms(m[s].name, terms) :: m[s]
  }

  /** `DELETE /categories/{slug}/` and `DELETE /genres/{slug}/`: looked up by slug
      in the searched queryset, so an entry whose name misses a `?search=` term of
      the request is not found either. */
  function DestroyNamed(m: map<string, Named>, slug: string, terms: seq<string>): (r: Result<map<string, Named>>)
    ensures r.Err? <==> slug !in m || !MatchesTerms(m[slug].name, terms)
    ensures r.Err? ==> r.error == NotFound
    ensures r.Ok? ==> r.value.Keys == m.Keys - {slug} && |r.value| == |m| - 1
    ensures r.Ok? ==> forall s :: s in r.value ==> r.value[s] == m[s]
  {
    if slug !in m || !MatchesTerms(m[slug].name, terms) then Err(NotFound)
    else
      var m' := m - {slug};
      assert m'.Keys == m.Keys - {slug};
      Ok(m')
  }

  /** A delete finds exactly the entries that the list under the same search
      terms shows. */
  lemma DestroyAgreesWithSearch(m: map<string, Named>, slug: string, terms: seq<string>)
    ensures DestroyNamed(m, slug, terms).Ok? <==> slug in SearchNamed(m, terms)
  {
  }

  /** Creating an entry and destroying it by its slug, under search terms its name
      contains, restores the table. */
  lemma CreateThenDestroy(m: map<string, Named>, n: Named, terms: seq<string>)
    requires n.slug !in m
    requires MatchesTerms(n.name, terms)
    ensures DestroyNamed(CreateNamed(m, n).value, n.slug, terms) == Ok(m)
  {
    assert CreateNamed(m, n).value - {n.slug} == m;
  }

  /** `DELETE /genres/{slug}/` on the whole store: the genre is looked up as by
      `DestroyNamed`, then removed, and with it its many-to-many rows, so it leaves
      the genres of every title. */
  function DestroyGenre(db: Db, slug: string, terms: seq<string>): (r: Result<Db>)
    ensures r.Err? <==> slug !in db.genres || !MatchesTerms(db.genres[slug].name, terms)
    ensures r.Err? ==> r.error == NotFound
    ensures r.Ok? ==>
      && r.value.genres == db.genres - {slug}
      && r.value == db.(genres := r.value.genres, titles := r.value.titles)
      && r.value.titles.Keys == db.titles.Keys
      && forall k :: k in db.titles ==>
           var before, after := db.titles[k], r.value.titles[k];
           && after == before.(genres := after.genres)
           && forall g :: g in after.genres <==> g in before.genres && g.slug != slug
  {
    match DestroyNamed(db.genres, slug, terms)
    case Err(e) => Err(e)
    case Ok(genres) =>
      var titles := map k | k in db.titles ::
        db.titles[k].(genres := set g | g in db.titles[k].genres && g.slug != slug);
      Ok(db.(genres := genres, titles := titles))
  }

  /** Deleting a genre keeps the store valid: no title keeps the deleted genre. */
  lemma DestroyGenrePreservesValid(db: Db, slug: string, terms: seq<string>)
    requires Valid(db)
    requires DestroyGenre(db, slug, terms).Ok?
    ensures Valid(DestroyGenre(db, slug, terms).value)
  {
  }

  /** After a genre is deleted, the `genre` filter with its exact slug finds no title
      through it: every remaining genre of a matching title has another slug. */
  lemma DestroyedGenreLeavesTitles(db: Db, slug: string, terms: seq<string>, k: nat)
    requires DestroyGenre(db, slug, terms).Ok?
    requires k in db.titles
    ensures forall g :: g in DestroyGenre(db, slug, terms).value.titles[k].genres ==> g.slug != slug
  {
  }

  /** The resources of the router. */
  datatype Resource = Titles | Categories | Genres | Users | Reviews | Comments

  /** The key a detail route looks an object up by. */
  datatype Lookup = ById | BySlug | ByUsername

  /** The actions each viewset offers: categories and genres mix in only create,
      list and destroy; every other viewset is a full model viewset. */
  function Actions(res: Resource): (acts: set<Action>)
    ensures Destroy in acts && Create in acts && List in acts
    ensures Update in acts <==> !(res == Categories || res == Genres)
  {
    if res == Categories || res == Genres then {Create, List, Destroy}
    else {List, Retrieve, Create, Update, PartialUpdate, Destroy}
  }

  /** The detail key of each viewset. */
  function LookupField(res: Resource): Lookup
  {
    match res
    case Categories => BySlug
    case Genres => BySlug
    case Users => ByUsername
    case _ => ById
  }

  /** Categories and genres cannot be retrieved or edited, and are destroyed by slug;
      users are addressed by username. */
  lemma TaxonomyRoutes(res: Resource)
    ensures res == Categories || res == Genres ==>
      Retrieve !in Actions(res) && PartialUpdate !in Actions(res) && LookupField(res) == BySlug
    ensures res == Users ==> LookupField(res) == ByUsername && Retrieve in Actions(res)
  {
  }
}

=== FILE: common.dfy ===
/** Outcomes shared by every request handler of the v1 API: an optional value,
    the reasons a request body is refused, and the error kinds the API answers with. */
module Common {

  datatype Option<+T> = None | Some(value: T)

  /** The value of a partial update: the supplied value, or else the current one. */
  function Pick<T>(o: Option<T>, current: T): T
  {
    if o.Some? then o.value else current
  }

  /** The request field a validation problem is reported against (`Body` is the
      `text` field of reviews and comments). */
  datatype Field = Username | Email | ConfirmationCode | Category | Genre | Slug | Score | Body

  /** One reason a serializer refuses a request body (answered with HTTP 400). */
  datatype Problem =
    | Required(field: Field)    // a field a full update must carry was left out
    | Blank(field: Field)       // a required text field was the empty string
    | BadFormat(field: Field)   // a field validator rejected the value
    | Unknown(field: Field)     // a slug that names no stored object
    | Taken(field: Field)       // the value already belongs to another record
    | YearNotPast               // the title year is not before the current year
    | ReservedUsername          // the literal username "me"
    | DuplicateReview           // a second review by one author of one title

  /** The error kinds a request can end in. */
  datatype Error =
    | NotAuthenticated              // 401: no valid credentials on an unsafe request
    | PermissionDenied              // 403: an object permission refused the request
    | NotFound                      // 404: a looked-up object does not exist
    | Invalid(problems: set<Problem>) // 400: raised by a serializer
    | CodeRejected                  // 400: returned by the token view for a bad code
    | IntegrityError                // 500: a unique constraint of the store refused a write

  datatype Result<+T> = Ok(value: T) | Err(error: Error)

  /** The HTTP status each error kind is answered with. */
  function Status(e: Error): (code: nat)
    ensures 400 <= code < 600
    ensures code == 400 <==> e.Invalid? || e.CodeRejected?
  {
    match e
    case NotAuthenticated => 401
    case PermissionDenied => 403
    case NotFound => 404
    case Invalid(_) => 400
    case CodeRejected => 400
    case IntegrityError => 500
  }
}

=== FILE: content.dfy ===
/** The user-authored content endpoints: reviews nested under a title and
    comments nested under a review of that title. */
module Content {
  import opened Common
  import opened Store
  import opened Serializers
  import opened Catalog

  /** The requester is a stored user; anonymous requests may only read. */
  predicate Authenticated(db: Db, requester: Option<nat>)
  {
    requester.Some? && requester.value in db.users
  }

  /** `GET /titles/{title}/reviews/`: the reviews of the title in the path, listed
      by ascending id. */
  function ListReviews(db: Db, title: nat): (r: Result<seq<nat>>)
    ensures r.Err? <==> title !in db.titles
    ensures r.Err? ==> r.error == NotFound
    ensures r.Ok? ==>
      && Increasing(r.value)
      && forall k :: k in r.value <==> k in db.reviews && db.reviews[k].title == title
  {
    if title !in db.titles then Err(NotFound) else Ok(ReviewsOf(db, title))
  }

  /** `POST /titles/{title}/reviews/`: the body is validated as a create (a second
      review by the same author is refused), then the title is looked up, and the
      review is saved with the requester as author, the path title as title and
      the server time `now` as publication date. */
  function CreateReview(db: Db, requester: Option<nat>, title: nat, p: ReviewPayload, now: int): (r: Result<(Db, nat)>)
    ensures !Authenticated(db, requester) ==> r == Err(NotAuthenticated)
    ensures Authenticated(db, requester) ==>
      (r == Err(Invalid({DuplicateReview})) <==> HasReview(db.reviews, requester.value, title))
    ensures (Authenticated(db, requester) && !HasReview(db.reviews, requester.value, title)
             && title !in db.titles) ==> r == Err(NotFound)
    ensures (Authenticated(db, requester) && !HasReview(db.reviews, requester.value, title)
             && title in db.titles) ==> r.Ok?
    ensures r.Ok? ==>
      var (db', id) := r.value;
      && Authenticated(db, requester) && title in db.titles
      && id !in db.reviews
      && db' == db.(reviews := db.reviews[id := Review(title, requester.value, p.text, p.score, now)])
      && |db'.reviews| == |db.reviews| + 1
  {
    if !Authenticated(db, requester) then Err(NotAuthenticated)
    else
      match ValidateReview(db, requester.value, title, Post, ReviewFields(p))
      case Err(e) => Err(e)
      case Ok(d) =>
        if title !in db.titles then Err(NotFound)
        else
          var id := NextKey(db.reviews);
          var reviews := db.reviews[id := Review(title, requester.value, d.text, d.score, now)];
          assert reviews.Keys == db.reviews.Keys + {id};
          Ok((db.(reviews := reviews), id))
  }

  /** Client values of the read-only `id`, `pub_date` and `author` never influence
      the created review. */
  lemma CreateReviewIgnoresReadOnly(db: Db, requester: Option<nat>, title: nat, p: ReviewPayload,
                                    id: Option<nat>, pubDate: Option<int>, author: Option<string>, now: int)
    ensures CreateReview(db, requester, title, p.(id := id, pubDate := pubDate, author := author), now)
         == CreateReview(db, requester, title, p, now)
  {
  }

  /** Once a review is created, the same author's next create for the same title is refused. */
  lemma SecondReviewRefused(db: Db, requester: Option<nat>, title: nat,
                            p: ReviewPayload, q: ReviewPayload, now: int, later: int)
    requires CreateReview(db, requester, title, p, now).Ok?
    ensures CreateReview(CreateReview(db, requester, title, p, now).value.0, requester, title, q, later)
         == Err(Invalid({DuplicateReview}))
  {
    var (db', id) := CreateReview(db, requester, title, p, now).value;
    assert db'.reviews[id].author == requester.value && db'.reviews[id].title == title;
    assert HasReview(db'.reviews, requester.value, title);
  }

  /** Creating a review keeps the store valid; in particular each author still has
      at most one review per title. */
  lemma CreateReviewPreservesValid(db: Db, requester: Option<nat>, title: nat, p: ReviewPayload, now: int)
    requires Valid(db)
    requires CreateReview(db, requester, title, p, now).Ok?
    ensures Valid(CreateReview(db, requester, title, p, now).value.0)
  {
  }

  /** `PUT` or `PATCH /titles/{title}/reviews/{review}/`: the review is looked up
      among the reviews of the path title and the object permission `mayEdit`
      decides. The body is then validated: a `PUT` must carry score and text, and
      the duplicate rule never refuses an update. Only the supplied fields change. */
  function UpdateReview(db: Db, requester: Option<nat>, title: nat, review: nat, verb: Method,
                        e: ReviewEdit, mayEdit: (Account, Review) -> bool): (r: Result<Db>)
    requires verb == Put || verb == Patch
    ensures !Authenticated(db, requester) ==> r == Err(NotAuthenticated)
    ensures (Authenticated(db, requester) &&
             (title !in db.titles || review !in db.reviews || db.reviews[review].title != title)) ==>
      r == Err(NotFound)
    ensures r.Err? && r.error == PermissionDenied ==>
      && Authenticated(db, requester) && review in db.reviews
      && !mayEdit(db.users[requester.value], db.reviews[review])
    ensures (Authenticated(db, requester) && title in db.titles && review in db.reviews
             && db.reviews[review].title == title && mayEdit(db.users[requester.value], db.reviews[review])) ==>
      (r.Ok? <==> MissingReviewFields(verb, e) == {})
    ensures (Authenticated(db, requester) && title in db.titles && review in db.reviews
             && db.reviews[review].title == title && mayEdit(db.users[requester.value], db.reviews[review])
             && MissingReviewFields(verb, e) != {}) ==>
      r == Err(Invalid(MissingReviewFields(verb, e)))
    ensures r.Err? && r.error.Invalid? ==> r.error == Invalid(MissingReviewFields(verb, e))
    ensures r.Ok? ==>
      var before := db.reviews[review];
      && review in db.reviews && before.title == title
      && mayEdit(db.users[requester.value], before)
      && r.value == db.(reviews := db.reviews[review :=
           before.(text := Pick(e.text, before.text), score := Pick(e.score, before.score))])
  {
    if !Authenticated(db, requester) then Err(NotAuthenticated)
    else if title !in db.titles || review !in db.reviews || db.reviews[review].title != title then Err(NotFound)
    else
      var before := db.reviews[review];
      if !mayEdit(db.users[requester.value], before) then Err(PermissionDenied)
      else
        var missing := MissingReviewFields(verb, e);
        if missing != {} then Err(Invalid(missing))
        else
          match ValidateReview(db, requester.value, title, verb, e)
          case Err(err) => Err(err)
          case Ok(d) =>
            Ok(db.(reviews := db.reviews[review :=
              before.(text := Pick(d.text, before.text), score := Pick(d.score, before.score))]))
  }

  /** A `PATCH` carrying only a score keeps the stored text, and one carrying only a
      text keeps the stored score. */
  lemma PatchKeepsOmittedFields(db: Db, requester: Option<nat>, title: nat, review: nat,
                                e: ReviewEdit, mayEdit: (Account, Review) -> bool)
    requires UpdateReview(db, requester, title, review, Patch, e, mayEdit).Ok?
    ensures e.text.None? ==>
      UpdateReview(db, requester, title, review, Patch, e, mayEdit).value.reviews[review].text
        == db.reviews[review].text
    ensures e.score.None? ==>
      UpdateReview(db, requester, title, review, Patch, e, mayEdit).value.reviews[review].score
        == db.reviews[review].score
  {
  }

  /** Updating a review keeps its author, title and date, so the store stays valid. */
  lemma UpdateReviewPreservesValid(db: Db, requester: Option<nat>, title: nat, review: nat, verb: Method,
                                   e: ReviewEdit, mayEdit: (Account, Review) -> bool)
    requires verb == Put || verb == Patch
    requires Valid(db)
    requires UpdateReview(db, requester, title, review, verb, e, mayEdit).Ok?
    ensures Valid(UpdateReview(db, requester, title, review, verb, e, mayEdit).value)
  {
  }

  /** The review named in a comment path, provided it exists, the title exists and
      the review belongs to that title; every other case is not found. */
  function ResolveReview(db: Db, title: nat, review: nat): (r: Result<nat>)
    ensures r.Ok? <==> review in db.reviews && title in db.titles && db.reviews[review].title == title
    ensures r.Ok? ==> r.value == review
    ensures r.Err? ==> r.error == NotFound
  {
    if review !in db.reviews then Err(NotFound)
    else if title !in db.titles then Err(NotFound)
    else if db.reviews[review].title != title then Err(NotFound)
    else Ok(review)
  }

  /** `GET /titles/{title}/reviews/{review}/comments/`: the comments of a resolved review. */
  function ListComments(db: Db, title: nat, review: nat): (r: Result<seq<nat>>)
    ensures r.Ok? <==> ResolveReview(db, title, review).Ok?
    ensures r.Err? ==> r.error == NotFound
    ensures r.Ok? ==>
      && Increasing(r.value)
      && forall k :: k in r.value <==> k in db.comments && db.comments[k].review == review
  {
    match ResolveReview(db, title, review)
    case Err(e) => Err(e)
    case Ok(rv) => Ok(Where(db.comments, (c: Comment) => c.review == rv))
  }

  /** `POST /titles/{title}/reviews/{review}/comments/`: the review is resolved
      against the path title, and the comment is saved with that review, the
      requester as author and the server time `now`. */
  function CreateComment(db: Db, requester: Option<nat>, title: nat, review: nat,
                         p: CommentPayload, now: int): (r: Result<(Db, nat)>)
    ensures !Authenticated(db, requester) ==> r == Err(NotAuthenticated)
    ensures Authenticated(db, requester) ==> (r.Ok? <==> ResolveReview(db, title, review).Ok?)
    ensures r.Err? && Authenticated(db, requester) ==> r.error == NotFound
    ensures r.Ok? ==>
      var (db', id) := r.value;
      && id !in db.comments
      && db.reviews[review].title == title
      && db' == db.(comments := db.comments[id := Comment(review, requester.value, p.text, now)])
      && |db'.comments| == |db.comments| + 1
  {
    if !Authenticated(db, requester) then Err(NotAuthenticated)
    else
      match ResolveReview(db, title, review)
      case Err(e) => Err(e)
      case Ok(rv) =>
        var id := NextKey(db.comments);
        var comments := db.comments[id := Comment(rv, requester.value, p.text, now)];
        assert comments.Keys == db.comments.Keys + {id};
        Ok((db.(comments := comments), id))
  }

  /** Client values of the read-only `id`, `pub_date` and `author` never influence
      the created comment. */
  lemma CreateCommentIgnoresReadOnly(db: Db, requester: Option<nat>, title: nat, review: nat,
                                     p: CommentPayload, id: Option<nat>, pubDate: Option<int>,
                                     author: Option<string>, now: int)
    ensures CreateComment(db, requester, title, review, p.(id := id, pubDate := pubDate, author := author), now)
         == CreateComment(db, requester, title, review, p, now)
  {
  }

  /** Creating a comment keeps the store valid. */
  lemma CreateCommentPreservesValid(db: Db, requester: Option<nat>, title: nat, review: nat,
                                    p: CommentPayload, now: int)
    requires Valid(db)
    requires CreateComment(db, requester, title, review, p, now).Ok?
    ensures Valid(CreateComment(db, requester, title, review, p, now).value.0)
  {
  }

  /** `PUT` or `PATCH` of a comment: the comment must be one of the comments of
      the resolved review and the object permission `mayEdit` decides; a `PUT`
      must carry the text, and a `PATCH` without it changes nothing. */
  function UpdateComment(db: Db, requester: Option<nat>, title: nat, review: nat, comment: nat,
                         verb: Method, text: Option<string>, mayEdit: (Account, Comment) -> bool): (r: Result<Db>)
    requires verb == Put || verb == Patch
    ensures !Authenticated(db, requester) ==> r == Err(NotAuthenticated)
    ensures (Authenticated(db, requester) &&
             (ResolveReview(db, title, review).Err? || comment !in db.comments
              || db.comments[comment].review != review)) ==>
      r == Err(NotFound)
    ensures r.Err? && Authenticated(db, requester) ==>
      r.error == NotFound || r.error == PermissionDenied || r.error == Invalid({Required(Body)})
    ensures r.Err? && r.error.Invalid? ==> verb == Put && text.None?
    ensures r.Err? && r.error == PermissionDenied ==>
      && Authenticated(db, requester) && comment in db.comments
      && !mayEdit(db.users[requester.value], db.comments[comment])
    ensures (Authenticated(db, requester) && ResolveReview(db, title, review).Ok?
             && comment in db.comments && db.comments[comment].review == review
             && mayEdit(db.users[requester.value], db.comments[comment])) ==>
      (r.Ok? <==> verb == Patch || text.Some?)
    ensures (Authenticated(db, requester) && ResolveReview(db, title, review).Ok?
             && comment in db.comments && db.comments[comment].review == review
             && mayEdit(db.users[requester.value], db.comments[comment])
             && verb == Put && text.None?) ==>
      r == Err(Invalid({Required(Body)}))
    ensures r.Ok? ==>
      var before := db.comments[comment];
      && comment in db.comments && before.review == review
      && ResolveReview(db, title, review).Ok?
      && mayEdit(db.users[requester.value], before)
      && r.value == db.(comments := db.comments[comment := before.(text := Pick(text, before.text))])
  {
    if !Authenticated(db, requester) then Err(NotAuthenticated)
    else
      match ResolveReview(db, title, review)
      case Err(e) => Err(e)
      case Ok(rv) =>
        if comment !in db.comments || db.comments[comment].review != rv then Err(NotFound)
        else
          var before := db.comments[comment];
          if !mayEdit(db.users[requester.value], before) then Err(PermissionDenied)
          else
            var missing := MissingCommentFields(verb, text);
            if missing != {} then Err(Invalid(missing))
            else Ok(db.(comments := db.comments[comment := before.(text := Pick(text, before.text))]))
  }

  /** `DELETE` of a comment: looked up like an update, then removed; nothing else changes. */
  function DestroyComment(db: Db, requester: Option<nat>, title: nat, review: nat, comment: nat,
                          mayEdit: (Account, Comment) -> bool): (r: Result<Db>)
    ensures !Authenticated(db, requester) ==> r == Err(NotAuthenticated)
    ensures (Authenticated(db, requester) &&
             (ResolveReview(db, title, review).Err? || comment !in db.comments
              || db.comments[comment].review != review)) ==>
      r == Err(NotFound)
    ensures r.Err? && r.error == PermissionDenied ==>
      && Authenticated(db, requester) && comment in db.comments
      && !mayEdit(db.users[requester.value], db.comments[comment])
    ensures (Authenticated(db, requester) && ResolveReview(db, title, review).Ok?
             && comment in db.comments && db.comments[comment].review == review
             && mayEdit(db.users[requester.value], db.comments[comment])) ==>
      r.Ok?
    ensures r.Ok? ==>
      && comment in db.comments && db.comments[comment].review == review
      && mayEdit(db.users[requester.value], db.comments[comment])
      && r.value.comments.Keys == db.comments.Keys - {comment}
      && (forall k :: k in r.value.comments ==> r.value.comments[k] == db.comments[k])
      && r.value == db.(comments := r.value.comments)
  {
    if !Authenticated(db, requester) then Err(NotAuthenticated)
    else
      match ResolveReview(db, title, review)
      case Err(e) => Err(e)
      case Ok(rv) =>
        if comment !in db.comments || db.comments[comment].review != rv then Err(NotFound)
        else if !mayEdit(db.users[requester.value], db.comments[comment]) then Err(PermissionDenied)
        else Ok(db.(comments := db.comments - {comment}))
  }

  /** Editing or deleting comments keeps the store valid. */
  lemma CommentChangesPreserveValid(db: Db, requester: Option<nat>, title: nat, review: nat, comment: nat,
                                    verb: Method, text: Option<string>, mayEdit: (Account, Comment) -> bool)
    requires verb == Put || verb == Patch
    requires Valid(db)
    ensures UpdateComment(db, requester, title, review, comment, verb, text, mayEdit).Ok? ==>
      Valid(UpdateComment(db, requester, title, review, comment, verb, text, mayEdit).value)
    ensures DestroyComment(db, requester, title, review, comment, mayEdit).Ok? ==>
      Valid(DestroyComment(db, requester, title, review, comment, mayEdit).value)
  {
  }
}

=== FILE: filter.dfy ===
/** The query filter of the titles list: `name`, `category` and `genre` are
    case-insensitive substring lookups, `year` is an exact match. */
module Filter {
  import opened Common
  import opened Text
  import opened Store

  /** The query parameters of a titles list request; `None` when not supplied. */
  datatype Query = Query(
    name: Option<string>,
    year: Option<int>,
    category: Option<string>,
    genre: Option<string>)

  const NoQuery := Query(None, None, None, None)

  /** A text parameter constrains the result only when supplied and non-empty (an
      empty value is treated as absent); then it must occur in `hay`, ignoring case. */
  predicate TextMatches(param: Option<string>, hay: string)
  {
    param.None? || param.value == "" || IContains(hay, param.value)
  }

  /** The meaning of a text parameter: absent, empty, or a substring of `hay` once
      both are folded. */
  lemma TextMatchesMeaning(param: Option<string>, hay: string)
    ensures TextMatches(param, hay) <==>
      param.None? || param.value == "" || Occurs(Lower(param.value), Lower(hay))
  {
    if param.Some? {
      IContainsMeaning(hay, param.value);
    }
  }

  /** The `genre` parameter: absent, empty, or contained in the slug of some genre
      of `t`, ignoring case. */
  predicate GenreMatches(param: Option<string>, t: Title)
  {
    param.None? || param.value == "" || exists g | g in t.genres :: IContains(g.slug, param.value)
  }

  lemma GenreMatchesMeaning(param: Option<string>, t: Title)
    ensures GenreMatches(param, t) <==>
      param.None? || param.value == ""
      || exists g :: g in t.genres && Occurs(Lower(param.value), Lower(g.slug))
  {
    if param.Some? {
      forall g | g in t.genres {
        IContainsMeaning(g.slug, param.value);
      }
    }
  }

  /** Title `t` passes every supplied filter: `name` and `category` by folded
      substring, `genre` through any one of the title's genres, `year` exactly. */
  function Matches(t: Title, q: Query): (b: bool)
    ensures b <==>
      && (q.name.None? || q.name.value == "" || Occurs(Lower(q.name.value), Lower(t.name)))
      && (q.year.None? || t.year == q.year.value)
      && (q.category.None? || q.category.value == ""
          || Occurs(Lower(q.category.value), Lower(t.category.slug)))
      && (q.genre.None? || q.genre.value == ""
          || exists g :: g in t.genres && Occurs(Lower(q.genre.value), Lower(g.slug)))
  {
    TextMatchesMeaning(q.name, t.name);
    TextMatchesMeaning(q.category, t.category.slug);
    GenreMatchesMeaning(q.genre, t);
    && TextMatches(q.name, t.name)
    && (q.year.None? || t.year == q.year.value)
    && TextMatches(q.category, t.category.slug)
    && GenreMatches(q.genre, t)
  }

  /** The name filter: the folded query is a substring of the folded name. */
  lemma NameFilter(t: Title, v: string)
    ensures Matches(t, NoQuery.(name := Some(v))) <==> Occurs(Lower(v), Lower(t.name))
  {
    if v == "" {
      assert OccursAt(Lower(v), Lower(t.name), 0);
    }
  }

  /** The category filter: the folded query is a substring of the folded category slug. */
  lemma CategoryFilter(t: Title, v: string)
    ensures Matches(t, NoQuery.(category := Some(v))) <==> Occurs(Lower(v), Lower(t.category.slug))
  {
    if v == "" {
      assert OccursAt(Lower(v), Lower(t.category.slug), 0);
    }
  }

  /** The genre filter: the folded query is a substring of the folded slug of some
      genre of the title; an empty query is ignored, even for a title without genres. */
  lemma GenreFilter(t: Title, v: string)
    ensures Matches(t, NoQuery.(genre := Some(v)))
      <==> v == "" || exists g :: g in t.genres && Occurs(Lower(v), Lower(g.slug))
  {
  }

  /** The year filter is an exact comparison. */
  lemma YearFilter(t: Title, y: int)
    ensures Matches(t, NoQuery.(year := Some(y))) <==> t.year == y
  {
  }

  /** Without parameters every title matches. */
  lemma NoFilter(t: Title)
    ensures Matches(t, NoQuery)
  {
  }

  /** Supplied filters combine by conjunction: a title matches a query exactly
      when it matches each of its parameters on its own. */
  lemma FiltersConjoin(t: Title, q: Query)
    ensures Matches(t, q) <==>
      && Matches(t, NoQuery.(name := q.name))
      && Matches(t, NoQuery.(year := q.year))
      && Matches(t, NoQuery.(category := q.category))
      && Matches(t, NoQuery.(genre := q.genre))
  {
  }
}

=== FILE: rating.dfy ===
/** The derived rating of a title: the average of its review scores, absent when
    there are none, shown through an integer field. */
module Rating {
  import opened Common

  function Sum(s: seq<int>): int
  {
    if s == [] then 0 else s[0] + Sum(s[1..])
  }

  function Min(s: seq<int>): (m: int)
    requires |s| > 0
    ensures m in s && forall x :: x in s ==> m <= x
  {
    if |s| == 1 then s[0]
    else
      var rest := Min(s[1..]);
      assert forall x :: x in s ==> x == s[0] || x in s[1..];
      if s[0] <= rest then s[0] else rest
  }

  function Max(s: seq<int>): (m: int)
    requires |s| > 0
    ensures m in s && forall x :: x in s ==> x <= m
  {
    if |s| == 1 then s[0]
    else
      var rest := Max(s[1..]);
      assert forall x :: x in s ==> x == s[0] || x in s[1..];
      if s[0] >= rest then s[0] else rest
  }

  /** An exact average: `total` divided by `count`. */
  datatype Average = Average(total: int, count: nat)

  /** The average of the scores (`Avg`), absent for no scores at all; it lies
      between the lowest and the highest score. */
  function Mean(scores: seq<int>): (m: Option<Average>)
    ensures m.None? <==> |scores| == 0
    ensures m.Some? ==> m.value.count == |scores| > 0 && m.value.total == Sum(scores)
    ensures m.Some? ==>
      m.value.count * Min(scores) <= m.value.total <= m.value.count * Max(scores)
  {
    if |scores| == 0 then None
    else
      SumBetween(scores);
      Some(Average(Sum(scores), |scores|))
  }

  lemma ScaleMonotone(c: int, a: int, b: int)
    requires 0 <= c && a <= b
    ensures c * a <= c * b
  {
    assert c * b - c * a == c * (b - a);
  }

  lemma PeelFactor(n: int, x: int)
    ensures n * x == x + (n - 1) * x
  {
  }

  /** The sum of n scores lies between n times the smallest and n times the largest,
      that is, their average lies between the smallest and the largest score. */
  lemma {:induction false} SumBetween(s: seq<int>)
    requires |s| > 0
    ensures |s| * Min(s) <= Sum(s) <= |s| * Max(s)
  {
    if |s| > 1 {
      var t := s[1..];
      SumBetween(t);
      assert Min(t) in s && Max(t) in s;
      ScaleMonotone(|t|, Min(s), Min(t));
      ScaleMonotone(|t|, Max(t), Max(s));
      PeelFactor(|s|, Min(s));
      PeelFactor(|s|, Max(s));
    }
  }

  /** Python's `int()` applied to `a / n`: the quotient truncated toward zero. */
  function TruncatedQuotient(a: int, n: nat): (q: int)
    requires n > 0
    ensures a >= 0 ==> 0 <= q && n * q <= a < n * (q + 1)
    ensures a < 0 ==> q <= 0 && n * (q - 1) < a <= n * q
  {
    if a >= 0 then a / n else -((-a) / n)
  }

  lemma CancelScale(n: int, x: int, y: int)
    requires n > 0 && n * x < n * y
    ensures x < y
  {
    if x >= y {
      ScaleMonotone(n, y, x);
    }
  }

  lemma CancelScaleAtMost(n: int, x: int, y: int)
    requires n > 0 && n * x <= n * y
    ensures x <= y
  {
    assert n * (y + 1) == n * y + n;
    CancelScale(n, x, y + 1);
  }

  /** A quotient of a total that lies between n times two bounds lies between the bounds. */
  lemma QuotientBetween(a: int, n: nat, lo: int, hi: int)
    requires n > 0 && n * lo <= a <= n * hi
    ensures lo <= TruncatedQuotient(a, n) <= hi
  {
    var q := TruncatedQuotient(a, n);
    if a >= 0 {
      CancelScale(n, lo, q + 1);
      CancelScaleAtMost(n, q, hi);
    } else {
      CancelScaleAtMost(n, lo, q);
      CancelScale(n, q - 1, hi);
    }
  }

  /** The rating the title serializers show: the average truncated to an integer,
      or nothing when there are no scores. */
  function Shown(scores: seq<int>): (r: Option<int>)
    ensures r.None? <==> |scores| == 0
    ensures r.Some? ==> Min(scores) <= r.value <= Max(scores)
  {
    match Mean(scores)
    case None => None
    case Some(avg) =>
      QuotientBetween(avg.total, avg.count, Min(scores), Max(scores));
      Some(TruncatedQuotient(avg.total, avg.count))
  }
}

=== FILE: serializers.dfy ===
/** The serializers of the v1 API: field and cross-field validators, the request
    bodies they accept (without the read-only fields a client cannot set) and the
    two representations of a title. */
module Serializers {
  import opened Common
  import opened Text
  import opened Store

  datatype Method = Get | Post | Put | Patch | Delete

  /** The year of a title must lie strictly before the current year `today`. */
  function ValidateYear(year: int, today: int): (r: Result<int>)
    ensures r.Ok? <==> year < today
    ensures r.Ok? ==> r.value == year
    ensures r.Err? ==> r.error == Invalid({YearNotPast})
  {
    if !(year < today) then Err(Invalid({YearNotPast})) else Ok(year)
  }

  /** The problems of a username field: a blank value is refused before the
      pattern `^[\w.@+-]+\Z` is tried. Signup and token requests share this rule. */
  function UsernameProblems(name: string): (ps: set<Problem>)
    ensures ps == {} <==> UsernamePattern(name)
    ensures ps <= {Blank(Username), BadFormat(Username)}
  {
    if name == "" then {Blank(Username)}
    else if !UsernamePattern(name) then {BadFormat(Username)}
    else {}
  }

  /** The problems of an email field; the address format rule is `emailOk`. */
  function EmailProblems(email: string, emailOk: string -> bool): (ps: set<Problem>)
    ensures ps == {} <==> email != "" && emailOk(email)
  {
    if email == "" then {Blank(Email)}
    else if !emailOk(email) then {BadFormat(Email)}
    else {}
  }

  /** The body of a signup request. */
  datatype SignupData = SignupData(email: string, username: string)

  /** Signup validation: the field rules first (all field problems are reported
      together), then the reserved name, the taken username and the taken email,
      in that order, the first failing check deciding the error. */
  function ValidateSignup(db: Db, data: SignupData, emailOk: string -> bool): (r: Result<SignupData>)
    ensures r.Ok? ==> r.value == data
    ensures r.Ok? <==>
      && UsernamePattern(data.username) && data.email != "" && emailOk(data.email)
      && data.username != "me"
      && !UsernameTaken(db.users, data.username)
      && !EmailTaken(db.users, data.email)
    ensures r.Err? ==> r.error.Invalid?
  {
    var fieldProblems := EmailProblems(data.email, emailOk) + UsernameProblems(data.username);
    if fieldProblems != {} then Err(Invalid(fieldProblems))
    else if data.username == "me" then Err(Invalid({ReservedUsername}))
    else if UsernameTaken(db.users, data.username) then Err(Invalid({Taken(Username)}))
    else if EmailTaken(db.users, data.email) then Err(Invalid({Taken(Email)}))
    else Ok(data)
  }

  /** Whether a signup body passes the field rules. */
  predicate SignupFieldsOk(data: SignupData, emailOk: string -> bool)
  {
    UsernamePattern(data.username) && data.email != "" && emailOk(data.email)
  }

  /** The order of the signup checks: once the fields are well-formed, the reserved
      name wins over everything, a taken username wins over a taken email, and a
      taken email is reported only for a fresh username. */
  lemma SignupCheckOrder(db: Db, data: SignupData, emailOk: string -> bool)
    requires SignupFieldsOk(data, emailOk)
    ensures data.username == "me" ==>
      ValidateSignup(db, data, emailOk) == Err(Invalid({ReservedUsername}))
    ensures data.username != "me" && UsernameTaken(db.users, data.username) ==>
      ValidateSignup(db, data, emailOk) == Err(Invalid({Taken(Username)}))
    ensures (data.username != "me" && !UsernameTaken(db.users, data.username)
             && EmailTaken(db.users, data.email)) ==>
      ValidateSignup(db, data, emailOk) == Err(Invalid({Taken(Email)}))
  {
  }

  /** The reserved name is refused whatever the email and the directory hold. */
  lemma ReservedNameRefused(db: Db, email: string, emailOk: string -> bool)
    ensures ValidateSignup(db, SignupData(email, "me"), emailOk).Err?
  {
  }

  /** The body of a token request. */
  datatype TokenData = TokenData(username: string, confirmationCode: string)

  /** Token request validation: a non-blank code and a username of the signup pattern. */
  function ValidateToken(data: TokenData): (r: Result<TokenData>)
    ensures r.Ok? <==> data.confirmationCode != "" && UsernamePattern(data.username)
    ensures r.Ok? ==> r.value == data
    ensures r.Err? ==>
      && r.error.Invalid?
      && (Blank(ConfirmationCode) in r.error.problems <==> data.confirmationCode == "")
      && (r.error.problems - {Blank(ConfirmationCode)} == UsernameProblems(data.username))
  {
    var ps := (if data.confirmationCode == "" then {Blank(ConfirmationCode)} else {})
      + UsernameProblems(data.username);
    if ps != {} then Err(Invalid(ps)) else Ok(data)
  }

  /** Signup and token requests apply the same username rule. */
  lemma SameUsernameRule(db: Db, email: string, emailOk: string -> bool, name: string, code: string)
    requires email != "" && emailOk(email) && code != ""
    ensures ValidateToken(TokenData(name, code)).Ok? <==> UsernamePattern(name)
    ensures (ValidateSignup(db, SignupData(email, name), emailOk) == Err(Invalid(UsernameProblems(name))))
      <==> !UsernamePattern(name)
  {
  }

  /** A review body as a client may send it. `id`, `pubDate` and `author` are
      read-only: the serializer drops them. */
  datatype ReviewPayload = ReviewPayload(
    id: Option<nat>, pubDate: Option<int>, author: Option<string>, score: int, text: string)

  /** The writable fields of a review. */
  datatype ReviewData = ReviewData(score: int, text: string)

  /** The validated data of a review body: only the writable fields survive. */
  function ReviewFields(p: ReviewPayload): ReviewData
  {
    ReviewData(p.score, p.text)
  }

  /** The writable fields of a review update body; `None` when the body leaves the
      field out. The read-only fields are dropped as on create. */
  datatype ReviewEdit = ReviewEdit(score: Option<int>, text: Option<string>)

  /** The required-field problems of a review update: a full update (`PUT`) must
      carry every writable field, a partial one (`PATCH`) may leave any out. */
  function MissingReviewFields(verb: Method, e: ReviewEdit): (ps: set<Problem>)
    ensures ps == {} <==> verb != Put || (e.score.Some? && e.text.Some?)
    ensures Required(Score) in ps <==> verb == Put && e.score.None?
    ensures Required(Body) in ps <==> verb == Put && e.text.None?
  {
    var score := if verb == Put && e.score.None? then {Required(Score)} else {};
    var text := if verb == Put && e.text.None? then {Required(Body)} else {};
    score + text
  }

  /** The required-field problems of a comment update body with text `text`. */
  function MissingCommentFields(verb: Method, text: Option<string>): (ps: set<Problem>)
    ensures ps == {} <==> verb != Put || text.Some?
    ensures ps != {} ==> ps == {Required(Body)}
  {
    if verb == Put && text.None? then {Required(Body)} else {}
  }

  /** A comment body as a client may send it; `id`, `pubDate` and `author` are read-only. */
  datatype CommentPayload = CommentPayload(
    id: Option<nat>, pubDate: Option<int>, author: Option<string>, text: string)

  /** A title body as a client may send it; `id` and `rating` are read-only.
      The category and the genres are given by slug. */
  datatype TitlePayload = TitlePayload(
    id: Option<nat>, rating: Option<int>, name: string, year: int, description: string,
    category: string, genre: seq<string>)

  /** The cross-field rule of reviews: on create (POST) only, an author who has
      already reviewed the title is refused; an update passes whatever is stored. */
  function ValidateReview<D>(db: Db, author: nat, title: nat, verb: Method, data: D): (r: Result<D>)
    ensures r.Err? <==> verb == Post && HasReview(db.reviews, author, title)
    ensures r.Ok? ==> r.value == data
    ensures r.Err? ==> r.error == Invalid({DuplicateReview})
  {
    var reviewed := HasReview(db.reviews, author, title);
    if verb == Post && reviewed then Err(Invalid({DuplicateReview})) else Ok(data)
  }

  /** An update of an existing review is never refused as a duplicate. */
  lemma UpdateNeverDuplicate<D>(db: Db, author: nat, title: nat, verb: Method, data: D)
    requires verb == Put || verb == Patch
    ensures ValidateReview(db, author, title, verb, data) == Ok(data)
  {
  }

  /** The viewset actions of the router. */
  datatype Action = List | Retrieve | Create | Update | PartialUpdate | Destroy

  /** How a title is written out: with nested category and genre objects (read
      representation) or with their slugs (write representation). */
  datatype TitleRepr =
    | ReadRepr(id: nat, name: string, year: int, rating: Option<int>,
               category: Named, genres: set<Named>, description: string)
    | WriteRepr(id: nat, name: string, year: int, rating: Option<int>,
                categorySlug: string, genreSlugs: set<string>, description: string)

  /** The representation chosen for an action: listing and retrieving use the read
      serializer, every other action the write serializer. */
  function Represent(id: nat, t: Title, rating: Option<int>, action: Action): (r: TitleRepr)
    ensures r.ReadRepr? <==> action == List || action == Retrieve
    ensures r.id == id && r.name == t.name && r.year == t.year && r.rating == rating
      && r.description == t.description
    ensures r.ReadRepr? ==> r.category == t.category && r.genres == t.genres
    ensures r.WriteRepr? ==>
      && r.categorySlug == t.category.slug
      && forall s :: s in r.genreSlugs <==> exists g :: g in t.genres && g.slug == s
  {
    if action == List || action == Retrieve then
      ReadRepr(id, t.name, t.year, rating, t.category, t.genres, t.description)
    else
      WriteRepr(id, t.name, t.year, rating, t.category.slug,
                set g | g in t.genres :: g.slug, t.description)
  }
}

=== FILE: store.dfy ===
/** The in-memory store the v1 API reads and writes: users, categories, genres,
    titles, reviews and comments, with the integrity rules the database keeps. */
module Store {
  import opened Common

  datatype Role = User | Moderator | Admin

  /** A user account; the fields are the ones the users serializer exposes. */
  datatype Account = Account(
    username: string,
    email: string,
    firstName: string,
    lastName: string,
    bio: string,
    role: Role)

  /** A category or a genre: a display name and a unique slug. */
  datatype Named = Named(name: string, slug: string)

  /** A reviewable work with its one category and its genres. The genres are a
      many-to-many relation: a set, each genre held at most once and in no order. */
  datatype Title = Title(
    name: string,
    year: int,
    description: string,
    category: Named,
    genres: set<Named>)

  /** A review of title `title` written by user `author`. */
  datatype Review = Review(title: nat, author: nat, text: string, score: int, pubDate: int)

  /** A comment on review `review` written by user `author`. */
  datatype Comment = Comment(review: nat, author: nat, text: string, pubDate: int)

  /** Tables keyed by primary key; categories and genres are keyed by slug. */
  datatype Db = Db(
    users: map<nat, Account>,
    categories: map<string, Named>,
    genres: map<string, Named>,
    titles: map<nat, Title>,
    reviews: map<nat, Review>,
    comments: map<nat, Comment>)

  /** Some stored user has username `name`. */
  predicate UsernameTaken(users: map<nat, Account>, name: string)
  {
    exists k | k in users :: users[k].username == name
  }

  /** Some stored user has email `email`. */
  predicate EmailTaken(users: map<nat, Account>, email: string)
  {
    exists k | k in users :: users[k].email == email
  }

  /** User `author` has already reviewed title `title`. */
  predicate HasReview(reviews: map<nat, Review>, author: nat, title: nat)
  {
    exists k | k in reviews :: reviews[k].author == author && reviews[k].title == title
  }

  /** No two users share a username or an email. */
  ghost predicate UniqueAccounts(users: map<nat, Account>)
  {
    forall a, b :: a in users && b in users && a != b ==>
      users[a].username != users[b].username && users[a].email != users[b].email
  }

  /** At most one review per author and title. */
  ghost predicate OneReviewPerPair(reviews: map<nat, Review>)
  {
    forall a, b ::
      (a in reviews && b in reviews && reviews[a].author == reviews[b].author
       && reviews[a].title == reviews[b].title) ==> a == b
  }

  /** Every foreign key of the store names an existing row, and slug keys agree with
      the records. A title's category is not required to be stored: what deleting a
      category does to its titles is decided by the models module, outside this model. */
  ghost predicate Linked(db: Db)
  {
    && (forall s :: s in db.categories ==> db.categories[s].slug == s)
    && GenreKeysAgree(db)
    && (forall k, g :: k in db.titles && g in db.titles[k].genres ==>
          g.slug in db.genres && db.genres[g.slug] == g)
    && (forall k :: k in db.reviews ==> db.reviews[k].title in db.titles && db.reviews[k].author in db.users)
    && (forall k :: k in db.comments ==> db.comments[k].review in db.reviews && db.comments[k].author in db.users)
  }

  /** Genre slug keys agree with the stored genres. */
  ghost predicate GenreKeysAgree(db: Db)
  {
    forall s :: s in db.genres ==> db.genres[s].slug == s
  }

  /** The integrity rules the database keeps between requests. */
  ghost predicate Valid(db: Db)
  {
    UniqueAccounts(db.users) && OneReviewPerPair(db.reviews) && Linked(db)
  }

  /** A finite non-empty set of keys has a largest element. */
  lemma {:induction false} HasLargest(keys: set<nat>)
    requires keys != {}
    ensures exists m :: m in keys && forall k :: k in keys ==> k <= m
    decreases |keys|
  {
    var x :| x in keys;
    if keys != {x} {
      HasLargest(keys - {x});
      var m :| m in keys - {x} && forall k :: k in keys - {x} ==> k <= m;
      var top := if x <= m then m else x;
      forall k | k in keys ensures k <= top {
        if k != x {
          assert k in keys - {x};
        }
      }
      assert top in keys;
    } else {
      assert forall k :: k in keys ==> k <= x;
    }
  }

  function MaxKey(keys: set<nat>): (m: nat)
    requires keys != {}
    ensures m in keys && forall k :: k in keys ==> k <= m
  {
    HasLargest(keys);
    var m :| m in keys && forall k :: k in keys ==> k <= m;
    m
  }

  /** The primary key the next inserted row receives: one more than any key in use. */
  function NextKey<T>(m: map<nat, T>): (k: nat)
    ensures k !in m
    ensures forall j :: j in m ==> j < k
  {
    if m == map[] then 1 else MaxKey(m.Keys) + 1
  }

  predicate Increasing(s: seq<nat>)
  {
    forall i, j | 0 <= i < j < |s| :: s[i] < s[j]
  }

  /** The keys of a table in ascending order (`ORDER BY id`). */
  function Ascending(keys: set<nat>): (r: seq<nat>)
    ensures Increasing(r)
    ensures forall k :: k in r <==> k in keys
    decreases |keys|
  {
    if keys == {} then []
    else
      var m := MaxKey(keys);
      Ascending(keys - {m}) + [m]
  }

  /** The ascending keys of the rows of `m` that satisfy `p` (a `WHERE` clause). */
  function Where<T>(m: map<nat, T>, p: T -> bool): (r: seq<nat>)
    ensures Increasing(r)
    ensures forall k :: k in r <==> k in m && p(m[k])
  {
    Select(Ascending(m.Keys), k => k in m && p(m[k]))
  }

  /** The elements of `s` that satisfy `p`, in their original order. */
  function Select(s: seq<nat>, p: nat -> bool): (r: seq<nat>)
    ensures forall k :: k in r <==> k in s && p(k)
    ensures Increasing(s) ==> Increasing(r)
  {
    if s == [] then []
    else
      var rest := Select(s[1..], p);
      if p(s[0]) then
        assert Increasing(s) ==> Increasing([s[0]] + rest) by {
          if Increasing(s) {
            forall k | k in rest ensures s[0] < k {
              var i :| 0 <= i < |s[1..]| && s[1..][i] == k;
              assert s[i + 1] == k;
            }
            var r := [s[0]] + rest;
            forall i, j | 0 <= i < j < |r| ensures r[i] < r[j] {
              assert r[j] == rest[j - 1] && r[j] in rest;
            }
          }
        }
        [s[0]] + rest
      else rest
  }

  /** The first user with username `name`: the lookup by the username key. */
  function FindUsername(users: map<nat, Account>, name: string): (r: Option<nat>)
    ensures r.Some? ==> r.value in users && users[r.value].username == name
    ensures r.None? <==> !UsernameTaken(users, name)
  {
    var ids := Where(users, (a: Account) => a.username == name);
    if ids == [] then None else Some(ids[0])
  }
}

=== FILE: text.dfy ===
/** Text rules used by the validators and the filters: case folding of the ASCII
    letters A-Z and the basic Cyrillic letters, substring search (the database's
    `icontains` lookup) and the username pattern `^[\w.@+-]+\Z`. */
module Text {

  /** An upper-case letter of the basic Cyrillic block: `Ѐ`..`Џ` or `А`..`Я`. */
  predicate IsCyrillicUpper(c: char)
  {
    0x400 <= c as int <= 0x42F
  }

  /** Folds an upper-case ASCII or Cyrillic letter to its lower-case letter; every
      other character is kept. `А`..`Я` sit 32 below `а`..`я`, and `Ѐ`..`Џ` (with `Ё`)
      sit 80 below `ѐ`..`џ`. */
  function LowerChar(c: char): (l: char)
    ensures !('A' <= l <= 'Z') && !IsCyrillicUpper(l)
    ensures l == c <==> !('A' <= c <= 'Z') && !IsCyrillicUpper(c)
    ensures 'A' <= c <= 'Z' ==> l as int == c as int + 32 && 'a' <= l <= 'z'
    ensures 0x410 <= c as int <= 0x42F ==> l as int == c as int + 32
    ensures 0x400 <= c as int <= 0x40F ==> l as int == c as int + 80
  {
    if 'A' <= c <= 'Z' then (c as int + 32) as char
    else if 0x410 <= c as int <= 0x42F then (c as int + 32) as char
    else if 0x400 <= c as int <= 0x40F then (c as int + 80) as char
    else c
  }

  function Lower(s: string): string
  {
    seq(|s|, i requires 0 <= i < |s| => LowerChar(s[i]))
  }

  /** `needle` occurs in `hay` starting at position `i`. */
  ghost predicate OccursAt(needle: string, hay: string, i: int)
  {
    0 <= i && i + |needle| <= |hay| && hay[i..i + |needle|] == needle
  }

  /** `needle` is a substring of `hay`: the meaning of a `LIKE '%needle%'` match. */
  ghost predicate Occurs(needle: string, hay: string)
  {
    exists i :: OccursAt(needle, hay, i)
  }

  /** The left-to-right scan that decides whether `needle` occurs in `hay`. */
  function Contains(hay: string, needle: string): bool
    decreases |hay|
  {
    if |needle| > |hay| then false
    else if hay[..|needle|] == needle then true
    else Contains(hay[1..], needle)
  }

  /** The scan finds `needle` exactly when it occurs somewhere in `hay`. */
  lemma {:induction false} ContainsIffOccurs(hay: string, needle: string)
    ensures Contains(hay, needle) <==> Occurs(needle, hay)
    decreases |hay|
  {
    if |needle| > |hay| {
      forall i ensures !OccursAt(needle, hay, i) {}
    } else if hay[..|needle|] == needle {
      assert OccursAt(needle, hay, 0);
    } else {
      ContainsIffOccurs(hay[1..], needle);
      if Occurs(needle, hay) {
        var i :| OccursAt(needle, hay, i);
        assert i != 0;
        assert hay[1..][i - 1..i - 1 + |needle|] == hay[i..i + |needle|];
        assert OccursAt(needle, hay[1..], i - 1);
      }
      if Occurs(needle, hay[1..]) {
        var i :| OccursAt(needle, hay[1..], i);
        assert hay[1..][i..i + |needle|] == hay[i + 1..i + 1 + |needle|];
        assert OccursAt(needle, hay, i + 1);
      }
    }
  }

  /** The `icontains` lookup: `needle` occurs in `hay` when the case of both is ignored. */
  function IContains(hay: string, needle: string): bool
  {
    Contains(Lower(hay), Lower(needle))
  }

  /** `icontains` holds exactly when the folded query is a substring of the folded text. */
  lemma IContainsMeaning(hay: string, needle: string)
    ensures IContains(hay, needle) <==> Occurs(Lower(needle), Lower(hay))
  {
    ContainsIffOccurs(Lower(hay), Lower(needle));
  }

  /** Folding either side first does not change an `icontains` match. */
  lemma IContainsIgnoresCase(hay: string, needle: string)
    ensures IContains(Lower(hay), needle) == IContains(hay, needle)
    ensures IContains(hay, Lower(needle)) == IContains(hay, needle)
  {
    assert Lower(Lower(hay)) == Lower(hay);
    assert Lower(Lower(needle)) == Lower(needle);
  }

  /** Cyrillic text is folded too: a lower-case query finds a capitalised name. */
  lemma CyrillicQueryMatches()
    ensures IContains("Мастер", "мастер")
    ensures !IContains("Мастер", "мастерская")
  {
    assert Lower("Мастер") == "мастер";
    assert Lower("мастер") == "мастер";
    assert Contains("мастер", "мастер");
  }

  /** The empty query is contained in every text. */
  lemma EmptyQueryMatches(hay: string)
    ensures IContains(hay, "")
  {
    assert Lower("") == "";
  }

  /** The search filter of the list endpoints: every search term occurs in the
      searched field, ignoring case; no terms at all match everything. */
  predicate MatchesTerms(text: string, terms: seq<string>)
  {
    forall i | 0 <= i < |terms| :: IContains(text, terms[i])
  }

  /** Python's `\w`, restricted to ASCII and the basic Cyrillic block: a letter,
      a digit or the underscore. */
  predicate IsWordChar(c: char)
  {
    'a' <= c <= 'z' || 'A' <= c <= 'Z' || '0' <= c <= '9' || c == '_'
    || 0x400 <= c as int <= 0x45F
  }

  /** A member of the character class `[\w.@+-]`. */
  predicate IsUsernameChar(c: char)
  {
    IsWordChar(c) || c == '.' || c == '@' || c == '+' || c == '-'
  }

  /** The strings matched by `^[\w.@+-]+\Z`: at least one character of the class,
      and nothing else up to the very end of the string. */
  predicate UsernamePattern(s: string)
  {
    |s| > 0 && forall i | 0 <= i < |s| :: IsUsernameChar(s[i])
  }

  /** The regular-expression match run by the username validator: it consumes
      characters of the class one by one and accepts only at the end of input.
      `UsernamePattern` is its specification, and the validators are stated with
      that predicate. */
  method MatchUsername(s: string) returns (ok: bool)
    ensures ok <==> UsernamePattern(s)
    ensures ok ==> s[|s| - 1] != '\n'
  {
    if |s| == 0 {
      return false;
    }
    var i := 0;
    while i < |s| && IsUsernameChar(s[i])
      invariant 0 <= i <= |s|
      invariant forall j :: 0 <= j < i ==> IsUsernameChar(s[j])
    {
      i := i + 1;
    }
    ok := i == |s|;
  }

  /** `\Z` anchors at the very end: a trailing newline is never accepted, even
      after a name that matches on its own. */
  lemma TrailingNewlineRejected(s: string)
    ensures !UsernamePattern(s + "\n")
  {
    assert (s + "\n")[|s|] == '\n';
  }
}
